=== FILE: README.md ===
# Projective geometry: line clipping and affine rectification

This project is a Dafny model of the computational core of a small Python
projective-geometry toolkit. Points and lines of the projective plane are
homogeneous 3-vectors. The cross product joins two points into a line, or meets
two lines in a point. A point lies on a line when their dot product is zero.
Two routines are modelled, both over exact `real` arithmetic:

- **Line clipping for plots.** `line_endpoints_2d_plot` crosses a line with
  the four edge lines of a plot rectangle, in the order left, right, top,
  bottom. It divides each candidate by its third component and keeps those
  whose free coordinate passes an inclusive range test. It succeeds only when
  exactly two candidates survive (`Visualize`).
- **Affine rectification.** The pure part of the image-rectification driver
  (`AffineRectify`) works as follows:
  - It turns four clicked corners into four unit-norm side lines, each through
    a corner and its cyclic successor.
  - It meets opposite sides in two vanishing points, each divided by its third
    component.
  - It joins the vanishing points into the imaged line at infinity. That line
    is scaled to unit norm and its sign is flipped so that the third
    component is non-negative.
  - It builds the homography that replaces the identity's last row with that
    line.
  - It maps every corner through the homography, dividing only the first two
    components by the third.
  - It bounds the mapped corners by an integer box: floor of the minima,
    ceiling of the maxima.

The rest of the model is split as follows:

- `Homogeneous` holds the vector algebra the routines share: dot, cross,
  scaling, normalization and dehomogenization.
- `Results` holds the failure type.
- `RealArith` holds single-step facts of real arithmetic.
- `Scenarios` evaluates the model on the repository's demo inputs and on a few
  boundary cases.

The square root in the Euclidean norm cannot be computed over the reals, so it
is a parameter. `norm: Vec3 -> real` is any function that, for every vector,
returns a non-negative number whose square is the sum of squares
(`Homogeneous.IsEuclideanNorm`).

In the rectification pipeline, wherever the Python code divides by zero,
numpy produces infinities or NaN and the driver raises later. The model stops
at that division instead, with a named failure. The clipping routine is
different: there a division by zero silently drops a candidate, as described
below. The failures are:

- `DegenerateInput`: two consecutive corners coincide, or the two vanishing
  points coincide. Either way there is a zero vector to normalize.
- `VanishingPointAtInfinity`: a pair of opposite sides is parallel in the
  image.
- `CornerAtInfinity`: a corner is mapped to infinity.
- `TooFewCorners`: fewer than four corners were given, where the Python code
  raises an IndexError.
- `BoundaryIntersection`: the clipping routine did not get exactly two
  survivors, where the Python code raises a ValueError.

In the clipping routine, a candidate from an edge parallel to the line has a
zero third component. numpy turns it into infinities or NaN. Each of those
fails at least one of the two comparisons of the range test, so such a
candidate is never kept. The model says this directly
(`Visualize.Candidate` yields `None`).

For limits with x_min <= x_max and y_min <= y_max, clipping succeeds for a
line through no corner of the rectangle exactly when the corners do not all
lie on one side of the line. An edge then keeps a point
exactly when the line separates the edge's two ends, and such a line
separates exactly two of the four edges. In particular, every line through a
point of the closed rectangle and through no corner is clipped
(`Visualize.InteriorLineHasEndpoints`). A line through a corner is kept by
both edges that meet there, which is why the diagonal of the rectangle fails.

In the trapezoid (0,0), (4,0), (5,3), (-1,3), sides 0 and 2 are both
horizontal. vp1 is their meet, so it lies at infinity, and
`Scenarios.TrapezoidFails` proves that the pipeline stops with
`VanishingPointAtInfinity`.

## Model

| member | source | states |
|---|---|---|
| Homogeneous.CrossIncidence | applications/affine_rectify_image.py:32 | the cross product of two vectors is incident to both of them, so the line through two lifted points contains both points |
| Homogeneous.AffineCrossZero | applications/affine_rectify_image.py:32 | two affine points (third component 1) have a zero cross product exactly when they are the same point |
| Homogeneous.Normalize | applications/affine_rectify_image.py:33 | dividing by the Euclidean norm succeeds exactly for a nonzero vector, fails with DegenerateInput otherwise, and yields a vector of unit norm |
| Homogeneous.NormalizePositiveMultiple | applications/affine_rectify_image.py:33 | the normalized vector is a positive multiple of the input, so it lies on the same lines and keeps the sign of its third component |
| Homogeneous.PositiveMultipleUnique | applications/affine_rectify_image.py:33 | two positive multiples of the same vector with the same norm are equal, so a unit vector is fixed by its direction and orientation |
| Homogeneous.NullVectorIsZero | applications/affine_rectify_image.py:33 | only the zero vector has a zero sum of squares, the case where the division by the norm fails |
| Homogeneous.NormalizeNegate | applications/affine_rectify_image.py:102-105 | normalizing the opposite vector gives the opposite unit vector, so normalization and the later sign flip commute |
| Homogeneous.Dehomogenize | projective_geometry/visualize.py:20 | dividing by a nonzero third component yields third component 1 and the same ratios of the first two components to the third |
| Homogeneous.DehomogenizeScale | projective_geometry/visualize.py:20 | dehomogenizing forgets any nonzero scale factor of the vector |
| Homogeneous.DehomogenizeIncidence | projective_geometry/visualize.py:19-20 | a point and its dehomogenized form lie on exactly the same lines |
| Homogeneous.CrossScale | projective_geometry/visualize.py:19 | scaling either factor of a cross product scales the product by the same factor |
| Homogeneous.MeetUnique | applications/affine_rectify_image.py:91-95 | two lines whose cross product has a nonzero third component share at most one affine point |
| Visualize.Candidate | projective_geometry/visualize.py:19-20 | the left-edge candidate, and likewise the other edges at lines 24-25, 29-30 and 34-35: it exists exactly when the line is not parallel to the edge, and then it is an affine point on the edge's supporting line and on the line |
| Visualize.CandidateCharacterization | projective_geometry/visualize.py:19-20 | the candidate equals p exactly when the line is not parallel to the edge and p is an affine point on both the line and the edge's supporting line |
| Visualize.EdgePointUnique | projective_geometry/visualize.py:19-20 | a line not parallel to an edge meets the edge's supporting line in only one affine point |
| Visualize.SurvivorCharacterization | projective_geometry/visualize.py:19-22 | an edge keeps p exactly when the line is not parallel to it, p is the affine meet of the line and the edge, and p passes the inclusive range test on the free coordinate |
| Visualize.SurvivorOfMeet | projective_geometry/visualize.py:21-22 | once the meet with an edge is known, the edge keeps it if and only if it passes the inclusive range test |
| Visualize.SurvivorOnBoundary | projective_geometry/visualize.py:19-37 | every kept candidate is an affine point on the line, on its edge's supporting line and on the rectangle's boundary |
| Visualize.Survivors | projective_geometry/visualize.py:15-37 | each edge contributes at most one survivor |
| Visualize.SurvivorsOnBoundary | projective_geometry/visualize.py:15-37 | every collected survivor is an affine point on the line and on the rectangle's boundary |
| Visualize.SurvivorsInEdgeOrder | projective_geometry/visualize.py:15-37 | the survivors are the kept candidates of left, right, top and bottom in that order, one slot per edge, with no deduplication |
| Visualize.SurvivorsOfMeets | projective_geometry/visualize.py:15-37 | for a line parallel to no edge, the survivors are exactly those of its four edge meets that pass their range tests, in edge order |
| Visualize.LineEndpoints | projective_geometry/visualize.py:39-44 | clipping succeeds exactly when two candidates survive, and otherwise fails with BoundaryIntersection (0, 1, 3 and 4 survivors alike); on success the endpoints are the two survivors in order, each an affine point on the line and on the boundary |
| Visualize.EndpointsInRectangle | projective_geometry/visualize.py:17-44 | for limits with min <= max, both endpoints lie in the closed rectangle |
| Visualize.CornerCountedTwice | projective_geometry/visualize.py:19-37 | a line through any corner of the rectangle that is parallel to neither axis is kept at that corner by both edge tests that meet there, one vertical and one horizontal, so the corner is collected twice |
| Visualize.EndpointsOfMeets | projective_geometry/visualize.py:15-44 | when the four edge meets of a line keep exactly two points, the clipped segment runs between those two points, in edge order |
| Visualize.Survivor | projective_geometry/visualize.py:19-22 | the left-edge test, and likewise the other edges at lines 24-27, 29-32 and 34-37: a kept point is an affine point on the edge's supporting line that passes the inclusive range test; only a line not parallel to the edge keeps one; a line not parallel to the edge loses its candidate only when the candidate fails the range test |
| Visualize.ParallelEdgeSeparatesNothing | projective_geometry/visualize.py:19-20 | a line parallel to an edge takes the same value at both ends of the edge, so it never has them on opposite sides |
| Visualize.MeetWithinIffSeparated | projective_geometry/visualize.py:21-22 | for min <= max and neither end of the edge on the line, the meet of the line with the edge's supporting line passes the range test exactly when the line's equation has opposite signs at the edge's two ends |
| Visualize.EdgeKeptIffSeparated | projective_geometry/visualize.py:19-37 | for min <= max and neither end of the edge on the line, an edge keeps a point exactly when the line has the edge's two ends on opposite sides |
| Visualize.EndpointsIffCornersSeparated | projective_geometry/visualize.py:15-44 | for min <= max and a line through no corner, clipping succeeds exactly when the four corners do not all lie strictly on one side of the line |
| Visualize.InteriorLineHasEndpoints | projective_geometry/visualize.py:15-44 | a line through some point of the closed rectangle and through none of its corners is clipped successfully |
| Visualize.CandidateScaleFree | projective_geometry/visualize.py:19-20 | each edge yields the same candidate for a line and for any nonzero multiple of it |
| Visualize.SurvivorsScaleFree | projective_geometry/visualize.py:15-37 | a line and any nonzero multiple of it have the same survivors |
| Visualize.LineEndpointsScaleFree | projective_geometry/visualize.py:3-44 | clipping depends on the line only up to nonzero scale, so a unit-norm side line clips to the same segment as its raw cross product |
| AffineRectify.LineThrough | applications/affine_rectify_image.py:29-33 | the side line through two corners exists exactly when they differ, and fails with DegenerateInput otherwise; it has unit norm, passes through both lifted corners, and is a positive multiple of their cross product, so its orientation follows the order of the two corners |
| AffineRectify.LineThroughUnique | applications/affine_rectify_image.py:32-33 | any line through both corners is proportional to the computed side line |
| AffineRectify.LineThroughReversed | applications/affine_rectify_image.py:32-33 | swapping the two corners yields the opposite unit vector |
| AffineRectify.SideLines | applications/affine_rectify_image.py:27-36 | four lines exist exactly when there are at least four corners and no corner equals its cyclic successor; otherwise it fails with TooFewCorners or DegenerateInput; line i is the line through corner i and corner (i+1) mod 4 |
| AffineRectify.VanishingPoint | applications/affine_rectify_image.py:91-95 | the meet of two lines exists exactly when their cross product has a nonzero third component, and fails with VanishingPointAtInfinity otherwise; it is an affine point on both lines |
| AffineRectify.VanishingPointCharacterization | applications/affine_rectify_image.py:91-95 | the vanishing point equals p exactly when the lines are not parallel and p is an affine point on both of them |
| AffineRectify.VanishingPointScaleFree | applications/affine_rectify_image.py:91-95 | rescaling either line by a nonzero factor does not change the vanishing point |
| AffineRectify.MeetOfSides | applications/affine_rectify_image.py:91 | the third component of the meet of two unscaled side lines is the planar cross product of the two sides' directions |
| AffineRectify.SideVanishingPoint | applications/affine_rectify_image.py:91-95 | the vanishing point of two unit-norm side lines equals that of the raw cross products, so it does not depend on the norm |
| AffineRectify.SideVanishingPointExists | applications/affine_rectify_image.py:91-95 | two sides have a vanishing point exactly when they are not parallel in the image |
| AffineRectify.SideMeet | applications/affine_rectify_image.py:91-95 | for two sides that are not parallel, the vanishing point computed from the corners alone is an affine point on both unnormalized side lines |
| AffineRectify.MeetOfSidesIsVanishingPoint | applications/affine_rectify_image.py:91-95 | the meet of two unnormalized side lines fails with VanishingPointAtInfinity exactly for parallel sides and is otherwise the corners' own meet |
| AffineRectify.SideMeetIsVanishingPoint | applications/affine_rectify_image.py:91-95 | the same holds for the vanishing point of the two unit-norm side lines the driver computes |
| AffineRectify.CanonicalSign | applications/affine_rectify_image.py:104-105 | the sign flip yields a non-negative third component, leaves a line with a non-negative third component alone, otherwise negates it, and keeps the norm |
| AffineRectify.CanonicalSignIncidence | applications/affine_rectify_image.py:104-105 | the sign flip does not change which points lie on the line |
| AffineRectify.CanonicalSignPositiveMultiple | applications/affine_rectify_image.py:104-105 | the sign flip commutes with positive scaling: flipping a positive multiple gives a positive multiple of the flipped vector |
| AffineRectify.CanonicalSignOfOpposite | applications/affine_rectify_image.py:104-105 | a line and its opposite have the same canonical form when the third component is nonzero |
| AffineRectify.LineAtInfinity | applications/affine_rectify_image.py:101-105 | the imaged line at infinity exists exactly when the vanishing points span a line, and fails with DegenerateInput otherwise; it passes through both vanishing points, has unit norm and a non-negative third component, and is a positive multiple of the sign-fixed cross product of the vanishing points, so even a cross product with third component 0 gets one orientation only |
| AffineRectify.LineAtInfinityIncidence | applications/affine_rectify_image.py:101-105 | normalizing and the sign flip do not move the line: the line at infinity passes through exactly the points the cross product of the vanishing points passes through |
| AffineRectify.LineAtInfinityUnique | applications/affine_rectify_image.py:101-102 | any line through both vanishing points is proportional to the computed line at infinity |
| AffineRectify.LineAtInfinitySymmetric | applications/affine_rectify_image.py:101-105 | when the line through the vanishing points misses the image origin (a nonzero third component of their cross product), swapping the two vanishing points gives the same line |
| AffineRectify.RectifyingHomography | applications/affine_rectify_image.py:110-111 | the homography maps every point to the point with the same first two components and, as third component, its dot product with the line |
| AffineRectify.ApplyRectifying | applications/affine_rectify_image.py:110-114 | the homography keeps a point's first two components and replaces the third by its dot product with the line at infinity, so it sends exactly the points of that line to infinity |
| AffineRectify.MapCorner | applications/affine_rectify_image.py:114-116 | a corner maps exactly when its image has a nonzero third component, and fails with CornerAtInfinity otherwise; the first two components are divided by the third and the third is kept |
| AffineRectify.MappedCornerIsImage | applications/affine_rectify_image.py:114-116 | for a corner off the line at infinity, the mapped corner scaled by its kept third component is the homography applied to the corner |
| AffineRectify.MapCorners | applications/affine_rectify_image.py:114-116 | all corners map exactly when none of them goes to infinity; the result maps corner j to position j |
| AffineRectify.Ceil | applications/affine_rectify_image.py:128 | the ceiling is the least integer not below x |
| AffineRectify.SeqMin | applications/affine_rectify_image.py:127 | the minimum is one of the values and no value is below it |
| AffineRectify.SeqMax | applications/affine_rectify_image.py:128 | the maximum is one of the values and no value is above it |
| AffineRectify.OutputBox | applications/affine_rectify_image.py:127-130 | the integer box contains every mapped corner |
| AffineRectify.OutputBoxSmallest | applications/affine_rectify_image.py:127-130 | every integer box that contains all mapped corners contains the computed box |
| AffineRectify.Rectify | applications/affine_rectify_image.py:91-130 | on success, each side line has unit norm, passes through its two corners and is a positive multiple of their cross product. Opposite side lines are not parallel, and each vanishing point is an affine point on its pair of opposite sides. The line at infinity passes through both vanishing points, with unit norm and a non-negative third component, and is a positive multiple of the sign-fixed cross product of the vanishing points. The homography is the identity with that line as its last row, and it sends both vanishing points to infinity. Every corner maps to its half-dehomogenized image, and the box is floor of the minima and ceiling of the maxima of the mapped corners, so by `AffineRectify.OutputBoxSmallest` it is the smallest integer box holding them |
| AffineRectify.RectificationUnique | applications/affine_rectify_image.py:91-130 | any two results that meet the contract of `AffineRectify.Rectify` for the same corners are equal, so that contract fixes the side lines, vanishing points, line at infinity, homography, mapped corners and box |
| AffineRectify.SideLinesUnique | applications/affine_rectify_image.py:27-36 | two results that meet that contract have the same four side lines |
| AffineRectify.MappedCornerUnique | applications/affine_rectify_image.py:114-116 | the half-dehomogenized image of a corner under a given homography is unique |
| AffineRectify.CornersReachFiniteImages | applications/affine_rectify_image.py:114-116 | with distinct vanishing points, every corner maps to a finite point exactly when no corner lies on the line through the two vanishing points |
| AffineRectify.RectifySucceeds | applications/affine_rectify_image.py:91-130 | the whole pipeline, side lines included, succeeds exactly when there are at least four corners, no corner equals its cyclic successor, neither pair of opposite sides is parallel, the two vanishing points differ and no corner lies on the line through them |
| AffineRectify.RectifyTooFewCorners | applications/affine_rectify_image.py:28-30 | fewer than four corners fail with TooFewCorners |
| AffineRectify.RectifyCoincidentCorners | applications/affine_rectify_image.py:32-33 | a corner equal to its cyclic successor fails with DegenerateInput |
| AffineRectify.RectifyParallelSides | applications/affine_rectify_image.py:91-95 | once the side lines exist, the pipeline stops with VanishingPointAtInfinity exactly when sides 0 and 2, or sides 1 and 3, are parallel in the image |
| AffineRectify.RectifyCoincidentVanishingPoints | applications/affine_rectify_image.py:101-102 | equal vanishing points fail with DegenerateInput |
| AffineRectify.RectifyCornerAtInfinity | applications/affine_rectify_image.py:114-116 | a corner on the imaged line at infinity fails with CornerAtInfinity |
| Scenarios.DemoLine | applications/plot_projective_2d_points.py:7-16 | the points (1, 3) and (4, 1) span the line (2, 3, -11) |
| Scenarios.DemoLineEndpoints | applications/plot_projective_2d_points.py:10-22 | with the demo's limits [0, 5, 0, 4] that line is clipped to (0, 11/3) and (5, 1/3) |
| Scenarios.ParallelLinesMeetAtInfinity | applications/plot_projective_line_intersection.py:7-10 | the lines (1, -1, 2) and (1, -1, 3) meet at the point at infinity (-1, -1, 0) |
| Scenarios.ParallelLinesFirstEndpoints | applications/plot_projective_line_intersection.py:15-23 | with the demo's limits [-4, 2, -4, 2] the first line is clipped to (-4, -2) and (0, 2) |
| Scenarios.ParallelLinesSecondEndpoints | applications/plot_projective_line_intersection.py:25-28 | the second line is clipped to (-4, -1) and (-1, 2) |
| Scenarios.DiagonalFails | projective_geometry/visualize.py:15-41 | the diagonal of a square has four survivors, each corner counted twice, so clipping fails |
| Scenarios.CornerLineFails | projective_geometry/visualize.py:15-41 | a line from a corner to the opposite edge has three survivors, so clipping fails |
| Scenarios.MissingLineFails | projective_geometry/visualize.py:15-41 | a line outside the rectangle has no survivors, so clipping fails |
| Scenarios.TrapezoidFails | applications/affine_rectify_image.py:91-95 | a trapezoid whose sides 0 and 2 are horizontal stops with VanishingPointAtInfinity |
| Scenarios.RepeatedClickFails | applications/affine_rectify_image.py:32-33 | the same corner clicked twice in a row fails with DegenerateInput |
| Scenarios.ConsecutiveDistinct | applications/affine_rectify_image.py:27-36 | four corners with no two consecutive ones equal have all four side lines |

## Left out

- Image loading and the BGR channel flip (applications/affine_rectify_image.py:49-51) are file I/O.
- Interactive corner clicking and all figure drawing (applications/affine_rectify_image.py:53-59, 74-88, 137-140) are user interface. This includes the loop that clips every side line to the image for drawing. That loop can raise when a side line does not cross the image in exactly two points. Whether it raises depends on the image size, which the model does not carry, so `AffineRectify.Rectify` does not fail there. `Visualize.LineEndpointsScaleFree` shows that clipping a unit-norm side line is the same as clipping its raw cross product.
- The perspective warp (applications/affine_rectify_image.py:133) is a call into OpenCV, and the crop (lines 134-135) is numpy slicing of the warped image. Both act on pixel data the model does not carry. Only the homography and the box that feed them are modelled.
- The diagnostic prints (lines 97-98, 107, 122-125) are output only. The rectified line at infinity (line 120) only feeds a print, and it applies the homography to a line as if it were a point.
- Command-line parsing and the entry point (lines 143-165) are plumbing.
- The demo scripts under applications/ appear only as the concrete scenarios in `Scenarios`. Their plotting is not modelled.
- Floating point is not modelled: the model computes exactly over the reals, and the square root is the `norm` parameter. Rounding, overflow and the values numpy would produce after a division by zero are not modelled. In the rectification pipeline, each division by zero instead stops the model with one of the named failures above, at the first degenerate step, where the Python code raises only later, at the clipping check or at the integer conversion of the box. In the clipping routine a division by zero raises nothing: the candidate is dropped, in the model as in the Python code.
- The error message text is not modelled. The clipping routine says "More than two intersection points" for every count other than two; the model has a single BoundaryIntersection failure.
- Visualize.Survivors: its own contract only bounds the count. What the survivors are is stated by Visualize.SurvivorsOnBoundary, Visualize.SurvivorsInEdgeOrder and Visualize.SurvivorsOfMeets.
- AffineRectify.Rectify: its own contract describes the successful result. When it succeeds is stated by AffineRectify.RectifySucceeds, and which failure it stops with by the RectifyTooFewCorners, RectifyCoincidentCorners, RectifyParallelSides, RectifyCoincidentVanishingPoints and RectifyCornerAtInfinity lemmas.

=== FILE: affine_rectify.dfy ===
/** Affine rectification from four clicked corners of an imaged planar
    quadrilateral. The four side lines give two vanishing points, the line
    through them is the image of the plane's line at infinity, and the
    homography whose last row is that line sends it back to infinity, which
    restores parallelism. The mapped corners fix the integer output box. */
module AffineRectify {
  import opened Results
  import opened Homogeneous
  import RealArith

  /** A clicked image position: x is the column, y the row. */
  datatype Point2 = Point2(x: real, y: real)

  /** The homogeneous point (x, y, 1). */
  function Lift(p: Point2): Vec3 {
    Vec3(p.x, p.y, 1.0)
  }

  /** The corner that follows corner i around the quadrilateral; the last
      corner is followed by the first. */
  function Next(i: nat): nat {
    (i + 1) % 4
  }

  // ---------------------------------------------------------------------
  // Side lines

  /** The line through two clicked points, scaled to unit norm. Coincident
      points span no line and the zero vector cannot be normalized. */
  function LineThrough(p: Point2, q: Point2, norm: Vec3 -> real): (r: Result<Vec3>)
    requires IsEuclideanNorm(norm)
    ensures r.Success? <==> p != q
    ensures r.Failure? ==> r.error == DegenerateInput
    ensures r.Success? ==>
      NormSq(r.value) == 1.0 && Incident(r.value, Lift(p)) && Incident(r.value, Lift(q))
    ensures r.Success? ==> PositiveMultiple(r.value, Cross(Lift(p), Lift(q)))
  {
    LineThroughFacts(p, q, norm);
    Normalize(Cross(Lift(p), Lift(q)), norm)
  }

  lemma LineThroughFacts(p: Point2, q: Point2, norm: Vec3 -> real)
    requires IsEuclideanNorm(norm)
    ensures Cross(Lift(p), Lift(q)) == Zero <==> p == q
    ensures Normalize(Cross(Lift(p), Lift(q)), norm).Success? ==>
      var l := Normalize(Cross(Lift(p), Lift(q)), norm).value;
      Incident(l, Lift(p)) && Incident(l, Lift(q)) && PositiveMultiple(l, Cross(Lift(p), Lift(q)))
  {
    var c := Cross(Lift(p), Lift(q));
    AffineCrossZero(Lift(p), Lift(q));
    CrossIncidence(Lift(p), Lift(q));
    NormalizePositiveMultiple(c, norm);
    if c != Zero {
      var l := Normalize(c, norm).value;
      PositiveMultipleInvariants(l, c, Lift(p));
      PositiveMultipleInvariants(l, c, Lift(q));
    }
  }

  /** The line through two distinct points is unique: any line through both
      is proportional to the computed one. */
  lemma LineThroughUnique(p: Point2, q: Point2, m: Vec3, norm: Vec3 -> real)
    requires IsEuclideanNorm(norm)
    requires p != q && Incident(m, Lift(p)) && Incident(m, Lift(q))
    ensures Cross(m, LineThrough(p, q, norm).value) == Zero
  {
    var c := Cross(Lift(p), Lift(q));
    LineThroughFacts(p, q, norm);
    LinesThroughBothParallel(m, Lift(p), Lift(q));
    NormalizeStep(c, norm);
    CrossScale(m, c, 1.0 / norm(c));
  }

  /** Clicking the two points in the other order gives the same line with
      the opposite orientation. */
  lemma LineThroughReversed(p: Point2, q: Point2, norm: Vec3 -> real)
    requires IsEuclideanNorm(norm)
    requires p != q
    ensures LineThrough(q, p, norm).value == Scale(LineThrough(p, q, norm).value, -1.0)
  {
    CrossAntisymmetric(Lift(p), Lift(q));
    NormalizeNegate(Cross(Lift(p), Lift(q)), norm);
  }

  /** The side lines of the quadrilateral: line i passes through corner i
      and the corner after it, so the last line closes the figure. Fewer
      than four corners leave a side without its end point. */
  function SideLines(corners: seq<Point2>, norm: Vec3 -> real): (r: Result<seq<Vec3>>)
    requires IsEuclideanNorm(norm)
    ensures r.Success? <==>
      |corners| >= 4 && forall i | 0 <= i < 4 :: corners[i] != corners[Next(i)]
    ensures r.Failure? ==> r.error == (if |corners| < 4 then TooFewCorners else DegenerateInput)
    ensures r.Success? ==>
      && |r.value| == 4
      && forall i | 0 <= i < 4 :: r.value[i] == LineThrough(corners[i], corners[Next(i)], norm).value
  {
    if |corners| < 4 then Failure(TooFewCorners)
    else
      assert Next(0) == 1 && Next(1) == 2 && Next(2) == 3 && Next(3) == 0;
      var l0 :- LineThrough(corners[0], corners[1], norm);
      var l1 :- LineThrough(corners[1], corners[2], norm);
      var l2 :- LineThrough(corners[2], corners[3], norm);
      var l3 :- LineThrough(corners[3], corners[0], norm);
      Success([l0, l1, l2, l3])
  }

  // ---------------------------------------------------------------------
  // Vanishing points

  /** Segment pq is parallel to segment rs: their direction vectors have a
      zero planar cross product. */
  predicate ParallelSegments(p: Point2, q: Point2, r: Point2, s: Point2) {
    (q.x - p.x) * (s.y - r.y) == (q.y - p.y) * (s.x - r.x)
  }

  /** The common point of two lines, dehomogenized. Lines that are parallel
      in the image meet at infinity, where numpy divides by zero. */
  function VanishingPoint(a: Vec3, b: Vec3): (r: Result<Vec3>)
    ensures r.Success? <==> Cross(a, b).w != 0.0
    ensures r.Failure? ==> r.error == VanishingPointAtInfinity
    ensures r.Success? ==> r.value.w == 1.0 && Incident(a, r.value) && Incident(b, r.value)
  {
    var c := Cross(a, b);
    if c.w == 0.0 then Failure(VanishingPointAtInfinity)
    else
      VanishingPointFacts(a, b);
      Success(Dehomogenize(c))
  }

  lemma VanishingPointFacts(a: Vec3, b: Vec3)
    requires Cross(a, b).w != 0.0
    ensures Incident(a, Dehomogenize(Cross(a, b))) && Incident(b, Dehomogenize(Cross(a, b)))
  {
    CrossIncidence(a, b);
    DehomogenizeIncidence(a, Cross(a, b));
    DehomogenizeIncidence(b, Cross(a, b));
  }

  /** The vanishing point is the one affine point on both lines, and it
      exists exactly when the lines are not parallel. */
  lemma VanishingPointCharacterization(a: Vec3, b: Vec3, p: Vec3)
    ensures VanishingPoint(a, b) == Success(p) <==>
      Cross(a, b).w != 0.0 && p.w == 1.0 && Incident(a, p) && Incident(b, p)
  {
    if Cross(a, b).w != 0.0 && p.w == 1.0 && Incident(a, p) && Incident(b, p) {
      MeetUnique(a, b, VanishingPoint(a, b).value, p);
    }
  }

  /** Rescaling either line, by any nonzero factor, leaves the vanishing
      point unchanged; in particular it does not depend on the norms the
      side lines were divided by. */
  lemma VanishingPointScaleFree(a: Vec3, b: Vec3, k: real, m: real)
    requires k != 0.0 && m != 0.0
    ensures VanishingPoint(Scale(a, k), Scale(b, m)) == VanishingPoint(a, b)
  {
    CrossScale(a, Scale(b, m), k);
    CrossScale(a, b, m);
    var c := Cross(a, b);
    if c.w != 0.0 {
      DehomogenizeScale(c, m);
      DehomogenizeScale(Scale(c, m), k);
    }
  }

  /** The third component of the meet of two side lines, before scaling, is
      the planar cross product of the sides' directions. */
  lemma MeetOfSides(p: Point2, q: Point2, r: Point2, s: Point2)
    ensures Cross(Cross(Lift(p), Lift(q)), Cross(Lift(r), Lift(s))).w ==
      (q.x - p.x) * (s.y - r.y) - (q.y - p.y) * (s.x - r.x)
  {
  }

  /** The vanishing point of two sides depends on the corners only, not on
      the norms used for the side lines. */
  lemma SideVanishingPoint(p: Point2, q: Point2, r: Point2, s: Point2, norm: Vec3 -> real)
    requires IsEuclideanNorm(norm)
    requires p != q && r != s
    ensures VanishingPoint(LineThrough(p, q, norm).value, LineThrough(r, s, norm).value) ==
      VanishingPoint(Cross(Lift(p), Lift(q)), Cross(Lift(r), Lift(s)))
  {
    var c1 := Cross(Lift(p), Lift(q));
    var c2 := Cross(Lift(r), Lift(s));
    LineThroughFacts(p, q, norm);
    LineThroughFacts(r, s, norm);
    NormalizeStep(c1, norm);
    NormalizeStep(c2, norm);
    VanishingPointScaleFree(c1, c2, 1.0 / norm(c1), 1.0 / norm(c2));
  }

  /** Two sides have a vanishing point exactly when they are not parallel in
      the image. */
  lemma SideVanishingPointExists(p: Point2, q: Point2, r: Point2, s: Point2, norm: Vec3 -> real)
    requires IsEuclideanNorm(norm)
    requires p != q && r != s
    ensures VanishingPoint(LineThrough(p, q, norm).value, LineThrough(r, s, norm).value).Success?
      <==> !ParallelSegments(p, q, r, s)
  {
    SideMeetIsVanishingPoint(p, q, r, s, norm);
  }

  /** The vanishing point of sides pq and rs computed from the corners
      alone: the affine meet of the unnormalized side lines. */
  function SideMeet(p: Point2, q: Point2, r: Point2, s: Point2): (v: Vec3)
    requires !ParallelSegments(p, q, r, s)
    ensures v.w == 1.0 && Incident(Cross(Lift(p), Lift(q)), v) && Incident(Cross(Lift(r), Lift(s)), v)
  {
    MeetOfSides(p, q, r, s);
    VanishingPointFacts(Cross(Lift(p), Lift(q)), Cross(Lift(r), Lift(s)));
    Dehomogenize(Cross(Cross(Lift(p), Lift(q)), Cross(Lift(r), Lift(s))))
  }

  /** The vanishing point of two sides, computed from their unit side lines,
      fails for parallel sides and is otherwise the corners' own meet. */
  lemma SideMeetIsVanishingPoint(p: Point2, q: Point2, r: Point2, s: Point2, norm: Vec3 -> real)
    requires IsEuclideanNorm(norm)
    requires p != q && r != s
    ensures VanishingPoint(LineThrough(p, q, norm).value, LineThrough(r, s, norm).value) ==
      if ParallelSegments(p, q, r, s) then Failure(VanishingPointAtInfinity) else Success(SideMeet(p, q, r, s))
  {
    SideVanishingPoint(p, q, r, s, norm);
    MeetOfSidesIsVanishingPoint(p, q, r, s);
  }

  /** The same for the unnormalized side lines: their affine meet exists
      exactly for non-parallel sides and is then the corners' meet. */
  lemma MeetOfSidesIsVanishingPoint(p: Point2, q: Point2, r: Point2, s: Point2)
    ensures VanishingPoint(Cross(Lift(p), Lift(q)), Cross(Lift(r), Lift(s))) ==
      if ParallelSegments(p, q, r, s) then Failure(VanishingPointAtInfinity) else Success(SideMeet(p, q, r, s))
  {
    MeetOfSides(p, q, r, s);
    if !ParallelSegments(p, q, r, s) {
      VanishingPointCharacterization(Cross(Lift(p), Lift(q)), Cross(Lift(r), Lift(s)), SideMeet(p, q, r, s));
    }
  }

  // ---------------------------------------------------------------------
  // Line at infinity

  /** The orientation fix of the line at infinity: a line whose third
      component is negative is replaced by its opposite. */
  function CanonicalSign(l: Vec3): (r: Vec3)
    ensures r.w >= 0.0
    ensures l.w >= 0.0 ==> r == l
    ensures r == l || r == Scale(l, -1.0)
    ensures NormSq(r) == NormSq(l)
  {
    NormSqScale(l, -1.0);
    if l.w < 0.0 then Scale(l, -1.0) else l
  }

  /** Flipping the orientation does not move the line. */
  lemma CanonicalSignIncidence(l: Vec3, p: Vec3)
    ensures Incident(CanonicalSign(l), p) <==> Incident(l, p)
  {
    ScalePreservesIncidence(p, l, -1.0);
  }

  /** A line and its opposite get the same orientation, unless the third
      component is zero and the test cannot tell them apart. */
  lemma CanonicalSignOfOpposite(l: Vec3)
    requires l.w != 0.0
    ensures CanonicalSign(Scale(l, -1.0)) == CanonicalSign(l)
  {
  }

  /** Orientation is kept by positive scaling: the orientation fix of a
      positive multiple is a positive multiple of the orientation fix. */
  lemma CanonicalSignPositiveMultiple(u: Vec3, v: Vec3)
    requires PositiveMultiple(u, v)
    ensures PositiveMultiple(CanonicalSign(u), CanonicalSign(v))
  {
    var k :| 0.0 < k && u == Scale(v, k);
    ScalePreservesSign(v, k);
    if v.w < 0.0 {
      ScaleCommutes(v, k, -1.0);
    }
  }

  /** Scaling twice does not depend on the order of the factors. */
  lemma ScaleCommutes(v: Vec3, k: real, m: real)
    ensures Scale(Scale(v, k), m) == Scale(Scale(v, m), k)
  {
  }

  /** The image of the line at infinity: the line through both vanishing
      points, at unit norm and with a non-negative third component.
      Coincident vanishing points span no line. */
  function LineAtInfinity(vp1: Vec3, vp2: Vec3, norm: Vec3 -> real): (r: Result<Vec3>)
    requires IsEuclideanNorm(norm)
    ensures r.Success? <==> Cross(vp1, vp2) != Zero
    ensures r.Failure? ==> r.error == DegenerateInput
    ensures r.Success? ==>
      && Incident(r.value, vp1) && Incident(r.value, vp2)
      && r.value.w >= 0.0 && NormSq(r.value) == 1.0
    ensures r.Success? ==> PositiveMultiple(r.value, CanonicalSign(Cross(vp1, vp2)))
  {
    LineAtInfinityFacts(vp1, vp2, norm);
    var l :- Normalize(Cross(vp1, vp2), norm);
    Success(CanonicalSign(l))
  }

  lemma LineAtInfinityFacts(vp1: Vec3, vp2: Vec3, norm: Vec3 -> real)
    requires IsEuclideanNorm(norm)
    ensures Normalize(Cross(vp1, vp2), norm).Success? ==>
      var l := CanonicalSign(Normalize(Cross(vp1, vp2), norm).value);
      Incident(l, vp1) && Incident(l, vp2) && PositiveMultiple(l, CanonicalSign(Cross(vp1, vp2)))
  {
    var c := Cross(vp1, vp2);
    CrossIncidence(vp1, vp2);
    NormalizePositiveMultiple(c, norm);
    if c != Zero {
      var l := Normalize(c, norm).value;
      PositiveMultipleInvariants(l, c, vp1);
      PositiveMultipleInvariants(l, c, vp2);
      CanonicalSignIncidence(l, vp1);
      CanonicalSignIncidence(l, vp2);
      CanonicalSignPositiveMultiple(l, c);
    }
  }

  /** Any line through both vanishing points is proportional to the
      computed line at infinity. */
  lemma LineAtInfinityUnique(vp1: Vec3, vp2: Vec3, m: Vec3, norm: Vec3 -> real)
    requires IsEuclideanNorm(norm)
    requires Cross(vp1, vp2) != Zero && Incident(m, vp1) && Incident(m, vp2)
    ensures Cross(m, LineAtInfinity(vp1, vp2, norm).value) == Zero
  {
    var c := Cross(vp1, vp2);
    LinesThroughBothParallel(m, vp1, vp2);
    NormalizeStep(c, norm);
    var l := Scale(c, 1.0 / norm(c));
    CrossScale(m, c, 1.0 / norm(c));
    CrossScale(m, l, -1.0);
  }

  /** The computed line at infinity is the line through the two vanishing
      points: it passes through exactly the points their cross product
      does. */
  lemma LineAtInfinityIncidence(vp1: Vec3, vp2: Vec3, norm: Vec3 -> real, p: Vec3)
    requires IsEuclideanNorm(norm)
    requires Cross(vp1, vp2) != Zero
    ensures Incident(LineAtInfinity(vp1, vp2, norm).value, p) <==> Incident(Cross(vp1, vp2), p)
  {
    var c := Cross(vp1, vp2);
    NormalizePositiveMultiple(c, norm);
    PositiveMultipleInvariants(Normalize(c, norm).value, c, p);
    CanonicalSignIncidence(Normalize(c, norm).value, p);
  }

  /** Exchanging the vanishing points reverses the cross product, and the
      sign fix undoes that, unless the line passes through the image origin
      (third component zero), where the result flips with the order. */
  lemma LineAtInfinitySymmetric(vp1: Vec3, vp2: Vec3, norm: Vec3 -> real)
    requires IsEuclideanNorm(norm)
    requires Cross(vp1, vp2).w != 0.0
    ensures LineAtInfinity(vp2, vp1, norm) == LineAtInfinity(vp1, vp2, norm)
  {
    var c := Cross(vp1, vp2);
    CrossAntisymmetric(vp1, vp2);
    NormalizeNegate(c, norm);
    NormalizePositiveMultiple(c, norm);
    PositiveMultipleInvariants(Normalize(c, norm).value, c, Zero);
    CanonicalSignOfOpposite(Normalize(c, norm).value);
  }

  // ---------------------------------------------------------------------
  // Rectifying homography and mapped corners

  /** The identity with its last row replaced by the line at infinity. */
  function RectifyingHomography(l: Vec3): (h: Mat3)
    ensures forall p {:trigger Apply(h, p)} :: Apply(h, p) == Vec3(p.x, p.y, Dot(l, p))
  {
    Mat3(Identity.r0, Identity.r1, l)
  }

  /** The homography keeps the first two components of a point and replaces
      the third by its incidence with the line, so it sends exactly the
      points of that line to infinity. */
  lemma ApplyRectifying(l: Vec3, p: Vec3)
    ensures Apply(RectifyingHomography(l), p) == Vec3(p.x, p.y, Dot(l, p))
    ensures Apply(RectifyingHomography(l), p).w == 0.0 <==> Incident(l, p)
  {
    RealArith.MultiplyByOne(p.x);
    RealArith.MultiplyByOne(p.y);
  }

  /** A clicked corner mapped through the homography, with its first two
      components divided by the third and the third left as it is. A corner
      on the line sent to infinity has no finite image. */
  function MapCorner(h: Mat3, p: Point2): (r: Result<Vec3>)
    ensures r.Success? <==> Apply(h, Lift(p)).w != 0.0
    ensures r.Failure? ==> r.error == CornerAtInfinity
    ensures r.Success? ==>
      var q := Apply(h, Lift(p));
      r.value.w == q.w && r.value.x * q.w == q.x && r.value.y * q.w == q.y
  {
    var q := Apply(h, Lift(p));
    if q.w == 0.0 then Failure(CornerAtInfinity)
    else
      RealArith.QuotientTimesDivisor(q.x, q.w);
      RealArith.QuotientTimesDivisor(q.y, q.w);
      Success(Vec3(q.x / q.w, q.y / q.w, q.w))
  }

  /** Under the rectifying homography a mapped corner is the projective
      image of the clicked one: the affine point it names, scaled by its kept
      third component, is the homography applied to the corner. */
  lemma MappedCornerIsImage(l: Vec3, p: Point2)
    requires !Incident(l, Lift(p))
    ensures MapCorner(RectifyingHomography(l), p).Success?
    ensures var r := MapCorner(RectifyingHomography(l), p).value;
      && r.w == Dot(l, Lift(p))
      && Scale(Vec3(r.x, r.y, 1.0), r.w) == Apply(RectifyingHomography(l), Lift(p))
  {
    ApplyRectifying(l, Lift(p));
    var r := MapCorner(RectifyingHomography(l), p).value;
    RealArith.MultiplyByOne(r.w);
    assert r.w * r.x == r.x * r.w;
    assert r.w * r.y == r.y * r.w;
  }

  /** Every corner mapped in order; one corner at infinity fails the whole
      mapping. */
  function MapCorners(h: Mat3, ps: seq<Point2>): (r: Result<seq<Vec3>>)
    ensures r.Success? <==> forall j | 0 <= j < |ps| :: Apply(h, Lift(ps[j])).w != 0.0
    ensures r.Failure? ==> r.error == CornerAtInfinity
    ensures r.Success? ==>
      |r.value| == |ps| && forall j | 0 <= j < |ps| :: MapCorner(h, ps[j]) == Success(r.value[j])
    decreases |ps|
  {
    if ps == [] then Success([])
    else
      var first :- MapCorner(h, ps[0]);
      var rest :- MapCorners(h, ps[1..]);
      assert forall j | 1 <= j < |ps| :: ps[j] == ps[1..][j - 1];
      Success([first] + rest)
  }

  // ---------------------------------------------------------------------
  // Output box

  /** The integer pixel range of the rectified output: floor of the least and
      ceiling of the greatest coordinate of the mapped corners. */
  datatype Box = Box(xMin: int, xMax: int, yMin: int, yMax: int)

  predicate InBox(b: Box, p: Vec3) {
    b.xMin as real <= p.x <= b.xMax as real && b.yMin as real <= p.y <= b.yMax as real
  }

  function Ceil(x: real): (c: int)
    ensures c as real - 1.0 < x <= c as real
  {
    -((-x).Floor)
  }

  function SeqMin(s: seq<real>): (m: real)
    requires |s| > 0
    ensures m in s && forall v <- s :: m <= v
  {
    if |s| == 1 then s[0]
    else
      var rest := SeqMin(s[1..]);
      assert forall v <- s :: v == s[0] || v in s[1..];
      if s[0] <= rest then s[0] else rest
  }

  function SeqMax(s: seq<real>): (m: real)
    requires |s| > 0
    ensures m in s && forall v <- s :: v <= m
  {
    if |s| == 1 then s[0]
    else
      var rest := SeqMax(s[1..]);
      assert forall v <- s :: v == s[0] || v in s[1..];
      if s[0] >= rest then s[0] else rest
  }

  function Xs(ps: seq<Vec3>): (xs: seq<real>)
    ensures |xs| == |ps| && forall j | 0 <= j < |ps| :: xs[j] == ps[j].x
  {
    seq(|ps|, j requires 0 <= j < |ps| => ps[j].x)
  }

  function Ys(ps: seq<Vec3>): (ys: seq<real>)
    ensures |ys| == |ps| && forall j | 0 <= j < |ps| :: ys[j] == ps[j].y
  {
    seq(|ps|, j requires 0 <= j < |ps| => ps[j].y)
  }

  /** The output box of the mapped corners; it contains every one of them. */
  function OutputBox(ps: seq<Vec3>): (b: Box)
    requires |ps| > 0
    ensures forall j | 0 <= j < |ps| :: InBox(b, ps[j])
  {
    var xMin := SeqMin(Xs(ps));
    var xMax := SeqMax(Xs(ps));
    var yMin := SeqMin(Ys(ps));
    var yMax := SeqMax(Ys(ps));
    assert forall j | 0 <= j < |ps| :: Xs(ps)[j] in Xs(ps) && Ys(ps)[j] in Ys(ps);
    Box(xMin.Floor, Ceil(xMax), yMin.Floor, Ceil(yMax))
  }

  /** The output box is the smallest integer box holding every mapped
      corner. */
  lemma OutputBoxSmallest(ps: seq<Vec3>, b: Box)
    requires |ps| > 0
    requires forall j | 0 <= j < |ps| :: InBox(b, ps[j])
    ensures b.xMin <= OutputBox(ps).xMin && OutputBox(ps).xMax <= b.xMax
    ensures b.yMin <= OutputBox(ps).yMin && OutputBox(ps).yMax <= b.yMax
  {
    var xs, ys := Xs(ps), Ys(ps);
    var i :| 0 <= i < |ps| && xs[i] == SeqMin(xs);
    var j :| 0 <= j < |ps| && xs[j] == SeqMax(xs);
    var k :| 0 <= k < |ps| && ys[k] == SeqMin(ys);
    var n :| 0 <= n < |ps| && ys[n] == SeqMax(ys);
    assert InBox(b, ps[i]) && InBox(b, ps[j]) && InBox(b, ps[k]) && InBox(b, ps[n]);
  }

  // ---------------------------------------------------------------------
  // The whole pipeline

  /** Everything the rectification computes before warping the image. */
  datatype Rectification = Rectification(
    lines: seq<Vec3>,
    vp1: Vec3,
    vp2: Vec3,
    lineAtInfinity: Vec3,
    h: Mat3,
    corners: seq<Vec3>,
    rectVp1: Vec3,
    rectVp2: Vec3,
    box: Box)

  /** What a rectification of the given corners guarantees: each side line
      has unit norm, passes through its two corners and keeps the
      orientation of their cross product, each vanishing point is the
      affine meet of a pair of opposite sides that are not parallel, the
      line at infinity passes through both vanishing points, is of unit
      norm and keeps the orientation of their cross product after the
      sign fix, the homography is the identity with that line as
      last row and sends both vanishing points to infinity, every corner is
      mapped to its image (first two components divided by the kept third
      one), and the box is the floor/ceiling box of the mapped corners. */
  ghost predicate IsRectification(corners: seq<Point2>, R: Rectification) {
    && |corners| >= 4
    && |R.lines| == 4
    && (forall i | 0 <= i < 4 ::
          && NormSq(R.lines[i]) == 1.0
          && Incident(R.lines[i], Lift(corners[i])) && Incident(R.lines[i], Lift(corners[Next(i)]))
          && PositiveMultiple(R.lines[i], Cross(Lift(corners[i]), Lift(corners[Next(i)]))))
    && Cross(R.lines[0], R.lines[2]).w != 0.0 && Cross(R.lines[1], R.lines[3]).w != 0.0
    && R.vp1.w == 1.0 && Incident(R.lines[0], R.vp1) && Incident(R.lines[2], R.vp1)
    && R.vp2.w == 1.0 && Incident(R.lines[1], R.vp2) && Incident(R.lines[3], R.vp2)
    && Incident(R.lineAtInfinity, R.vp1) && Incident(R.lineAtInfinity, R.vp2)
    && R.lineAtInfinity.w >= 0.0 && NormSq(R.lineAtInfinity) == 1.0
    && PositiveMultiple(R.lineAtInfinity, CanonicalSign(Cross(R.vp1, R.vp2)))
    && R.h.r0 == Identity.r0 && R.h.r1 == Identity.r1 && R.h.r2 == R.lineAtInfinity
    && R.rectVp1 == Apply(R.h, R.vp1) && R.rectVp1.w == 0.0
    && R.rectVp2 == Apply(R.h, R.vp2) && R.rectVp2.w == 0.0
    && |R.corners| == |corners|
    && (forall j | 0 <= j < |corners| :: MappedCorner(R.lineAtInfinity, corners[j], R.corners[j]))
    && R.box == OutputBox(R.corners)
  }

  /** `m` is the image of the clicked corner `p` under the homography with
      last row `l`, in the half-dehomogenized form the Python code computes. */
  predicate MappedCorner(l: Vec3, p: Point2, m: Vec3) {
    && m.w == Dot(l, Lift(p))
    && m.w != 0.0
    && m.x * m.w == p.x
    && m.y * m.w == p.y
  }

  /** From clicked corners to homography and output box: side lines, the
      vanishing points of sides 0 and 2 and of sides 1 and 3, the line
      through them, the homography with that line as last row, the mapped
      corners and their box. Each division by zero of the Python code is one
      of the named failures. */
  function Rectify(corners: seq<Point2>, norm: Vec3 -> real): (r: Result<Rectification>)
    requires IsEuclideanNorm(norm)
    ensures r.Success? ==> IsRectification(corners, r.value)
  {
    var lines :- SideLines(corners, norm);
    var vp1 :- VanishingPoint(lines[0], lines[2]);
    var vp2 :- VanishingPoint(lines[1], lines[3]);
    var lInf :- LineAtInfinity(vp1, vp2, norm);
    var h := RectifyingHomography(lInf);
    var mapped :- MapCorners(h, corners);
    var R := Rectification(lines, vp1, vp2, lInf, h, mapped, Apply(h, vp1), Apply(h, vp2), OutputBox(mapped));
    RectifyFacts(corners, norm, R);
    Success(R)
  }

  lemma RectifyFacts(corners: seq<Point2>, norm: Vec3 -> real, R: Rectification)
    requires IsEuclideanNorm(norm)
    requires SideLines(corners, norm) == Success(R.lines)
    requires VanishingPoint(R.lines[0], R.lines[2]) == Success(R.vp1)
    requires VanishingPoint(R.lines[1], R.lines[3]) == Success(R.vp2)
    requires LineAtInfinity(R.vp1, R.vp2, norm) == Success(R.lineAtInfinity)
    requires R.h == RectifyingHomography(R.lineAtInfinity)
    requires MapCorners(R.h, corners) == Success(R.corners)
    requires R.rectVp1 == Apply(R.h, R.vp1) && R.rectVp2 == Apply(R.h, R.vp2)
    requires R.box == OutputBox(R.corners)
    ensures IsRectification(corners, R)
  {
    ApplyRectifying(R.lineAtInfinity, R.vp1);
    ApplyRectifying(R.lineAtInfinity, R.vp2);
    forall j | 0 <= j < |corners| {
      MappedCornerFact(R.lineAtInfinity, corners[j], R.corners[j]);
    }
  }

  lemma MappedCornerFact(l: Vec3, p: Point2, m: Vec3)
    requires MapCorner(RectifyingHomography(l), p) == Success(m)
    ensures MappedCorner(l, p, m)
  {
    ApplyRectifying(l, Lift(p));
  }

  /** Fewer than four corners: a side has no second point. */
  lemma RectifyTooFewCorners(corners: seq<Point2>, norm: Vec3 -> real)
    requires IsEuclideanNorm(norm)
    requires |corners| < 4
    ensures Rectify(corners, norm) == Failure(TooFewCorners)
  {
  }

  /** Two consecutive corners that coincide span no side line. */
  lemma RectifyCoincidentCorners(corners: seq<Point2>, norm: Vec3 -> real, i: nat)
    requires IsEuclideanNorm(norm)
    requires |corners| >= 4 && i < 4 && corners[i] == corners[Next(i)]
    ensures Rectify(corners, norm) == Failure(DegenerateInput)
  {
  }

  /** The pipeline stops at the vanishing points exactly when a pair of
      opposite sides is parallel in the image: sides 0 and 2 first, then
      sides 1 and 3. */
  lemma RectifyParallelSides(corners: seq<Point2>, norm: Vec3 -> real)
    requires IsEuclideanNorm(norm)
    requires SideLines(corners, norm).Success?
    ensures Rectify(corners, norm) == Failure(VanishingPointAtInfinity) <==>
      || ParallelSegments(corners[0], corners[1], corners[2], corners[3])
      || ParallelSegments(corners[1], corners[2], corners[3], corners[0])
  {
    var lines := SideLines(corners, norm).value;
    assert Next(0) == 1 && Next(1) == 2 && Next(2) == 3 && Next(3) == 0;
    assert lines[0] == LineThrough(corners[0], corners[1], norm).value;
    assert lines[1] == LineThrough(corners[1], corners[2], norm).value;
    assert lines[2] == LineThrough(corners[2], corners[3], norm).value;
    assert lines[3] == LineThrough(corners[3], corners[0], norm).value;
    SideVanishingPointExists(corners[0], corners[1], corners[2], corners[3], norm);
    SideVanishingPointExists(corners[1], corners[2], corners[3], corners[0], norm);
  }

  /** Vanishing points that coincide span no line at infinity. */
  lemma RectifyCoincidentVanishingPoints(corners: seq<Point2>, norm: Vec3 -> real)
    requires IsEuclideanNorm(norm)
    requires SideLines(corners, norm).Success?
    requires var lines := SideLines(corners, norm).value;
      && VanishingPoint(lines[0], lines[2]).Success?
      && VanishingPoint(lines[0], lines[2]) == VanishingPoint(lines[1], lines[3])
    ensures Rectify(corners, norm) == Failure(DegenerateInput)
  {
    var lines := SideLines(corners, norm).value;
    var vp := VanishingPoint(lines[0], lines[2]).value;
    AffineCrossZero(vp, vp);
  }

  /** A corner on the imaged line at infinity is sent to infinity. */
  lemma RectifyCornerAtInfinity(corners: seq<Point2>, norm: Vec3 -> real, j: nat)
    requires IsEuclideanNorm(norm)
    requires SideLines(corners, norm).Success?
    requires var lines := SideLines(corners, norm).value;
      && VanishingPoint(lines[0], lines[2]).Success?
      && VanishingPoint(lines[1], lines[3]).Success?
      && var l := LineAtInfinity(VanishingPoint(lines[0], lines[2]).value,
                                 VanishingPoint(lines[1], lines[3]).value, norm);
         l.Success? && j < |corners| && Incident(l.value, Lift(corners[j]))
    ensures Rectify(corners, norm) == Failure(CornerAtInfinity)
  {
    var lines := SideLines(corners, norm).value;
    var l := LineAtInfinity(VanishingPoint(lines[0], lines[2]).value,
                            VanishingPoint(lines[1], lines[3]).value, norm).value;
    ApplyRectifying(l, Lift(corners[j]));
  }

  /** The conditions under which the whole pipeline succeeds, in terms of
      the clicked corners alone: four corners, no side of zero length, no
      pair of opposite sides parallel, two distinct vanishing points, and no
      corner on the line through them. */
  predicate Rectifiable(corners: seq<Point2>) {
    && |corners| >= 4
    && (forall i | 0 <= i < 4 :: corners[i] != corners[Next(i)])
    && !ParallelSegments(corners[0], corners[1], corners[2], corners[3])
    && !ParallelSegments(corners[1], corners[2], corners[3], corners[0])
    && var vp1 := SideMeet(corners[0], corners[1], corners[2], corners[3]);
       var vp2 := SideMeet(corners[1], corners[2], corners[3], corners[0]);
       && vp1 != vp2
       && forall j | 0 <= j < |corners| :: !Incident(Cross(vp1, vp2), Lift(corners[j]))
  }

  /** The pipeline succeeds exactly for rectifiable corners; each failing
      condition is one of the failures above. */
  lemma RectifySucceeds(corners: seq<Point2>, norm: Vec3 -> real)
    requires IsEuclideanNorm(norm)
    ensures Rectify(corners, norm).Success? <==> Rectifiable(corners)
  {
    if SideLines(corners, norm).Success? {
      var lines := SideLines(corners, norm).value;
      assert Next(0) == 1 && Next(1) == 2 && Next(2) == 3 && Next(3) == 0;
      assert lines[0] == LineThrough(corners[0], corners[1], norm).value;
      assert lines[1] == LineThrough(corners[1], corners[2], norm).value;
      assert lines[2] == LineThrough(corners[2], corners[3], norm).value;
      assert lines[3] == LineThrough(corners[3], corners[0], norm).value;
      SideMeetIsVanishingPoint(corners[0], corners[1], corners[2], corners[3], norm);
      SideMeetIsVanishingPoint(corners[1], corners[2], corners[3], corners[0], norm);
      if !ParallelSegments(corners[0], corners[1], corners[2], corners[3])
        && !ParallelSegments(corners[1], corners[2], corners[3], corners[0])
      {
        var vp1 := SideMeet(corners[0], corners[1], corners[2], corners[3]);
        var vp2 := SideMeet(corners[1], corners[2], corners[3], corners[0]);
        AffineCrossZero(vp1, vp2);
        if vp1 != vp2 {
          CornersReachFiniteImages(corners, vp1, vp2, norm);
        }
      }
    }
  }

  /** With distinct vanishing points, mapping the corners succeeds exactly
      when no corner lies on the line through them. */
  lemma CornersReachFiniteImages(corners: seq<Point2>, vp1: Vec3, vp2: Vec3, norm: Vec3 -> real)
    requires IsEuclideanNorm(norm)
    requires Cross(vp1, vp2) != Zero
    ensures var h := RectifyingHomography(LineAtInfinity(vp1, vp2, norm).value);
      MapCorners(h, corners).Success? <==>
      forall j | 0 <= j < |corners| :: !Incident(Cross(vp1, vp2), Lift(corners[j]))
  {
    var l := LineAtInfinity(vp1, vp2, norm).value;
    forall j | 0 <= j < |corners|
      ensures Apply(RectifyingHomography(l), Lift(corners[j])).w != 0.0
        <==> !Incident(Cross(vp1, vp2), Lift(corners[j]))
    {
      ApplyRectifying(l, Lift(corners[j]));
      LineAtInfinityIncidence(vp1, vp2, norm, Lift(corners[j]));
    }
  }

  /** A rectification of given corners is unique: the sign conventions on
      the side lines and on the line at infinity leave no choice, so any
      two results that satisfy the contract of `Rectify` are equal. */
  lemma RectificationUnique(corners: seq<Point2>, R1: Rectification, R2: Rectification)
    requires IsRectification(corners, R1) && IsRectification(corners, R2)
    ensures R1 == R2
  {
    SideLinesUnique(corners, R1, R2);
    MeetUnique(R1.lines[0], R1.lines[2], R1.vp1, R2.vp1);
    MeetUnique(R1.lines[1], R1.lines[3], R1.vp2, R2.vp2);
    PositiveMultipleUnique(R1.lineAtInfinity, R2.lineAtInfinity, CanonicalSign(Cross(R1.vp1, R1.vp2)));
    forall j | 0 <= j < |corners|
      ensures R1.corners[j] == R2.corners[j]
    {
      MappedCornerUnique(R1.lineAtInfinity, corners[j], R1.corners[j], R2.corners[j]);
    }
  }

  /** The four side lines of two rectifications of the same corners agree. */
  lemma SideLinesUnique(corners: seq<Point2>, R1: Rectification, R2: Rectification)
    requires IsRectification(corners, R1) && IsRectification(corners, R2)
    ensures R1.lines == R2.lines
  {
    forall i | 0 <= i < 4
      ensures R1.lines[i] == R2.lines[i]
    {
      PositiveMultipleUnique(R1.lines[i], R2.lines[i], Cross(Lift(corners[i]), Lift(corners[Next(i)])));
    }
  }

  /** The image of a corner under a given homography is determined. */
  lemma MappedCornerUnique(l: Vec3, p: Point2, m1: Vec3, m2: Vec3)
    requires MappedCorner(l, p, m1) && MappedCorner(l, p, m2)
    ensures m1 == m2
  {
    RealArith.Cancel(m1.w, m1.x, m2.x);
    RealArith.Cancel(m1.w, m1.y, m2.y);
  }
}

=== FILE: homogeneous.dfy ===
/** Exact algebra of the real projective plane on homogeneous 3-vectors.
    A point (x, y, w) stands for the affine point (x/w, y/w) when w != 0 and
    for a point at infinity when w == 0; a line (a, b, c) is the set of points
    p with a*p.x + b*p.y + c*p.w == 0. The same type serves for both, as the
    numpy 3-arrays of the Python code do. */
module Homogeneous {
  import opened Results
  import RealArith

  datatype Vec3 = Vec3(x: real, y: real, w: real)

  /** A 3x3 matrix given by its rows. */
  datatype Mat3 = Mat3(r0: Vec3, r1: Vec3, r2: Vec3)

  const Zero := Vec3(0.0, 0.0, 0.0)

  const Identity := Mat3(Vec3(1.0, 0.0, 0.0), Vec3(0.0, 1.0, 0.0), Vec3(0.0, 0.0, 1.0))

  function Dot(u: Vec3, v: Vec3): real {
    u.x * v.x + u.y * v.y + u.w * v.w
  }

  /** Incidence of a point and a line. */
  predicate Incident(line: Vec3, p: Vec3) {
    Dot(line, p) == 0.0
  }

  /** The line through two points, or the point common to two lines. */
  function Cross(u: Vec3, v: Vec3): Vec3 {
    Vec3(u.y * v.w - u.w * v.y, u.w * v.x - u.x * v.w, u.x * v.y - u.y * v.x)
  }

  function Scale(v: Vec3, k: real): Vec3 {
    Vec3(k * v.x, k * v.y, k * v.w)
  }

  function NormSq(v: Vec3): real {
    v.x * v.x + v.y * v.y + v.w * v.w
  }

  /** Matrix-vector product. */
  function Apply(m: Mat3, v: Vec3): Vec3 {
    Vec3(Dot(m.r0, v), Dot(m.r1, v), Dot(m.r2, v))
  }

  /** `u` is `v` multiplied by some positive factor: the same projective
      element with the same orientation. */
  ghost predicate PositiveMultiple(u: Vec3, v: Vec3) {
    exists k :: 0.0 < k && u == Scale(v, k)
  }

  /** The square root of a sum of squares cannot be computed over the reals,
      so the Euclidean norm is passed in as a function, characterised as the
      non-negative square root of NormSq that vanishes on the zero vector only. */
  ghost predicate IsEuclideanNorm(norm: Vec3 -> real) {
    forall v {:trigger IsNormOf(norm(v), v)} :: IsNormOf(norm(v), v)
  }

  ghost predicate IsNormOf(k: real, v: Vec3) {
    && 0.0 <= k
    && k * k == NormSq(v)
    && (0.0 < k <==> v != Zero)
  }

  /** The cross product is incident to both of its factors: it is the line
      through two points, or the point common to two lines. */
  lemma CrossIncidence(u: Vec3, v: Vec3)
    ensures Incident(Cross(u, v), u) && Incident(Cross(u, v), v)
    ensures Incident(u, Cross(u, v)) && Incident(v, Cross(u, v))
  {
  }

  /** Scaling a vector multiplies every inner product with it by the factor. */
  lemma DotScale(u: Vec3, v: Vec3, k: real)
    ensures Dot(u, Scale(v, k)) == k * Dot(u, v)
    ensures Dot(Scale(v, k), u) == k * Dot(v, u)
  {
    RealArith.Distribute3(k, u.x * v.x, u.y * v.y, u.w * v.w);
    RealArith.Distribute3(k, v.x * u.x, v.y * u.y, v.w * u.w);
    RealArith.Associate(k, u.x, v.x);
    RealArith.Associate(k, u.y, v.y);
    RealArith.Associate(k, u.w, v.w);
    RealArith.Associate(k, v.x, u.x);
    RealArith.Associate(k, v.y, u.y);
    RealArith.Associate(k, v.w, u.w);
  }

  /** Incidence is a projective notion: it survives any nonzero scaling of
      the point or of the line. */
  lemma ScalePreservesIncidence(line: Vec3, p: Vec3, k: real)
    requires k != 0.0
    ensures Incident(line, Scale(p, k)) <==> Incident(line, p)
    ensures Incident(Scale(line, k), p) <==> Incident(line, p)
  {
    DotScale(line, p, k);
    DotScale(p, line, k);
    if Incident(line, Scale(p, k)) {
      RealArith.ZeroProduct(k, Dot(line, p));
    }
    if Incident(Scale(line, k), p) {
      RealArith.ZeroProduct(k, Dot(line, p));
    }
  }

  /** A positive scaling keeps the sign of the homogeneous component. */
  lemma ScalePreservesSign(v: Vec3, k: real)
    requires k > 0.0
    ensures Scale(v, k).w > 0.0 <==> v.w > 0.0
    ensures Scale(v, k).w < 0.0 <==> v.w < 0.0
    ensures Scale(v, k).w == 0.0 <==> v.w == 0.0
  {
    RealArith.ProductSign(k, v.w);
  }

  /** A positive multiple lies on exactly the lines (or passes through exactly
      the points) of the vector it multiplies, and keeps the sign of its homogeneous
      component. */
  lemma PositiveMultipleInvariants(u: Vec3, v: Vec3, p: Vec3)
    requires PositiveMultiple(u, v)
    ensures Incident(u, p) <==> Incident(v, p)
    ensures Incident(p, u) <==> Incident(p, v)
    ensures (u.w > 0.0 <==> v.w > 0.0) && (u.w < 0.0 <==> v.w < 0.0)
  {
    var k :| 0.0 < k && u == Scale(v, k);
    ScalePreservesIncidence(v, p, k);
    ScalePreservesIncidence(p, v, k);
    ScalePreservesSign(v, k);
  }

  lemma NormSqScale(v: Vec3, k: real)
    ensures NormSq(Scale(v, k)) == k * k * NormSq(v)
  {
    RealArith.Distribute3(k * k, v.x * v.x, v.y * v.y, v.w * v.w);
    RealArith.SquareOfProduct(k, v.x);
    RealArith.SquareOfProduct(k, v.y);
    RealArith.SquareOfProduct(k, v.w);
  }

  /** Two positive scalings of one vector with the same norm coincide. */
  lemma PositiveScaleUnique(v: Vec3, k: real, m: real)
    requires 0.0 < k && 0.0 < m
    requires NormSq(Scale(v, k)) == NormSq(Scale(v, m))
    ensures Scale(v, k) == Scale(v, m)
  {
    if NormSq(v) == 0.0 {
      NullVectorIsZero(v);
      ScaleZero(k);
      ScaleZero(m);
    } else {
      NormSqScale(v, k);
      NormSqScale(v, m);
      RealArith.PositiveFactorUnique(k, m, NormSq(v));
    }
  }

  /** Only the zero vector has norm zero. */
  lemma NullVectorIsZero(v: Vec3)
    requires NormSq(v) == 0.0
    ensures v == Zero
  {
    RealArith.SumOfSquaresZero(v.x, v.y, v.w);
  }

  /** Scaling the zero vector leaves it zero. */
  lemma ScaleZero(k: real)
    ensures Scale(Zero, k) == Zero
  {
  }

  /** Two positive multiples of the same vector with the same norm are
      equal: a direction and an orientation fix a unit vector. */
  lemma PositiveMultipleUnique(u: Vec3, w: Vec3, v: Vec3)
    requires PositiveMultiple(u, v) && PositiveMultiple(w, v)
    requires NormSq(u) == NormSq(w)
    ensures u == w
  {
    var k :| 0.0 < k && u == Scale(v, k);
    var m :| 0.0 < m && w == Scale(v, m);
    PositiveScaleUnique(v, k, m);
  }

  /** The cross product is bilinear: scaling either factor scales it. */
  lemma CrossScale(u: Vec3, v: Vec3, k: real)
    ensures Cross(Scale(u, k), v) == Scale(Cross(u, v), k)
    ensures Cross(u, Scale(v, k)) == Scale(Cross(u, v), k)
  {
    CrossScaleLeft(u, v, k);
    CrossScaleRight(u, v, k);
  }

  lemma CrossScaleLeft(u: Vec3, v: Vec3, k: real)
    ensures Cross(Scale(u, k), v) == Scale(Cross(u, v), k)
  {
    ScaledDifferences(u, v, k);
    RealArith.Associate(k, u.y, v.w);
    RealArith.Associate(k, u.w, v.y);
    RealArith.Associate(k, u.w, v.x);
    RealArith.Associate(k, u.x, v.w);
    RealArith.Associate(k, u.x, v.y);
    RealArith.Associate(k, u.y, v.x);
  }

  lemma CrossScaleRight(u: Vec3, v: Vec3, k: real)
    ensures Cross(u, Scale(v, k)) == Scale(Cross(u, v), k)
  {
    ScaledDifferences(u, v, k);
    RealArith.Associate(k, u.y, v.w);
    RealArith.Associate(k, u.w, v.y);
    RealArith.Associate(k, u.w, v.x);
    RealArith.Associate(k, u.x, v.w);
    RealArith.Associate(k, u.x, v.y);
    RealArith.Associate(k, u.y, v.x);
  }

  lemma ScaledDifferences(u: Vec3, v: Vec3, k: real)
    ensures Scale(Cross(u, v), k).x == k * (u.y * v.w) - k * (u.w * v.y)
    ensures Scale(Cross(u, v), k).y == k * (u.w * v.x) - k * (u.x * v.w)
    ensures Scale(Cross(u, v), k).w == k * (u.x * v.y) - k * (u.y * v.x)
  {
    RealArith.DistributeDifference(k, u.y * v.w, u.w * v.y);
    RealArith.DistributeDifference(k, u.w * v.x, u.x * v.w);
    RealArith.DistributeDifference(k, u.x * v.y, u.y * v.x);
  }

  /** Dividing by the norm leaves a unit vector on the same ray. */
  lemma DivideByNorm(v: Vec3, k: real)
    requires 0.0 < k && k * k == NormSq(v)
    ensures NormSq(Scale(v, 1.0 / k)) == 1.0
    ensures PositiveMultiple(Scale(v, 1.0 / k), v)
  {
    NormSqScale(v, 1.0 / k);
    RealArith.InverseSquare(k);
    assert 0.0 < 1.0 / k;
  }

  lemma NormalizeStep(v: Vec3, norm: Vec3 -> real)
    requires IsEuclideanNorm(norm) && v != Zero
    ensures norm(v) != 0.0
    ensures NormSq(Scale(v, 1.0 / norm(v))) == 1.0
  {
    assert IsNormOf(norm(v), v);
    DivideByNorm(v, norm(v));
  }

  /** Division by the Euclidean norm; a zero vector has no direction and is
      reported as degenerate instead of being divided by zero. */
  function Normalize(v: Vec3, norm: Vec3 -> real): (r: Result<Vec3>)
    requires IsEuclideanNorm(norm)
    ensures r.Success? <==> v != Zero
    ensures r.Failure? ==> r.error == DegenerateInput
    ensures r.Success? ==> NormSq(r.value) == 1.0
  {
    if v == Zero then Failure(DegenerateInput)
    else
      NormalizeStep(v, norm);
      Success(Scale(v, 1.0 / norm(v)))
  }

  /** Normalizing keeps the direction and orientation of the vector, hence
      its incidences and the sign of its homogeneous component. */
  lemma NormalizePositiveMultiple(v: Vec3, norm: Vec3 -> real)
    requires IsEuclideanNorm(norm)
    ensures Normalize(v, norm).Success? ==> PositiveMultiple(Normalize(v, norm).value, v)
  {
    if v != Zero {
      assert IsNormOf(norm(v), v);
      DivideByNorm(v, norm(v));
    }
  }

  /** Division of every component by the homogeneous one. */
  function Dehomogenize(v: Vec3): (r: Vec3)
    requires v.w != 0.0
    ensures r.w == 1.0
    ensures r.x * v.w == v.x && r.y * v.w == v.y
  {
    RealArith.QuotientTimesDivisor(v.x, v.w);
    RealArith.QuotientTimesDivisor(v.y, v.w);
    Vec3(v.x / v.w, v.y / v.w, 1.0)
  }

  /** Dehomogenizing forgets any nonzero scale factor. */
  lemma DehomogenizeScale(v: Vec3, k: real)
    requires v.w != 0.0 && k != 0.0
    ensures Scale(v, k).w != 0.0
    ensures Dehomogenize(Scale(v, k)) == Dehomogenize(v)
  {
    RealArith.QuotientOfMultiples(v.x, v.w, k);
    RealArith.QuotientOfMultiples(v.y, v.w, k);
  }

  /** A dehomogenized point is the same projective point, so it keeps every
      incidence. */
  lemma DehomogenizeIncidence(line: Vec3, p: Vec3)
    requires p.w != 0.0
    ensures Incident(line, Dehomogenize(p)) <==> Incident(line, p)
  {
    RealArith.QuotientTimesDivisor(p.x, p.w);
    RealArith.QuotientTimesDivisor(p.y, p.w);
    assert Scale(Dehomogenize(p), p.w) == p;
    ScalePreservesIncidence(line, Dehomogenize(p), p.w);
  }

  /** Two affine points (third component 1) span no line exactly when they
      are the same point. */
  lemma AffineCrossZero(p: Vec3, q: Vec3)
    requires p.w == 1.0 && q.w == 1.0
    ensures Cross(p, q) == Zero <==> p == q
  {
    RealArith.MultiplyByOne(p.x);
    RealArith.MultiplyByOne(p.y);
    RealArith.MultiplyByOne(q.x);
    RealArith.MultiplyByOne(q.y);
  }

  /** A line through two points is proportional to their cross product:
      its cross product with it vanishes. */
  lemma LinesThroughBothParallel(l: Vec3, a: Vec3, b: Vec3)
    requires Incident(l, a) && Incident(l, b)
    ensures Cross(l, Cross(a, b)) == Zero
  {
    RealArith.TripleProductVanishes(l.x, l.y, l.w, a.x, a.y, a.w, b.x, b.y, b.w);
    RealArith.TripleProductVanishes(l.y, l.w, l.x, a.y, a.w, a.x, b.y, b.w, b.x);
    RealArith.TripleProductVanishes(l.w, l.x, l.y, a.w, a.x, a.y, b.w, b.x, b.y);
  }

  /** Two lines whose cross product is affine meet in exactly one affine
      point. */
  lemma MeetUnique(a: Vec3, b: Vec3, p: Vec3, q: Vec3)
    requires Cross(a, b).w != 0.0
    requires p.w == 1.0 && Incident(a, p) && Incident(b, p)
    requires q.w == 1.0 && Incident(a, q) && Incident(b, q)
    ensures p == q
  {
    RealArith.MultiplyByOne(a.w);
    RealArith.MultiplyByOne(b.w);
    RealArith.DistributeDifference(a.x, p.x, q.x);
    RealArith.DistributeDifference(a.y, p.y, q.y);
    RealArith.DistributeDifference(b.x, p.x, q.x);
    RealArith.DistributeDifference(b.y, p.y, q.y);
    RealArith.TwoByTwoUnique(a.x, a.y, b.x, b.y, p.x - q.x, p.y - q.y);
  }

  /** Swapping the factors of a cross product reverses its orientation. */
  lemma CrossAntisymmetric(u: Vec3, v: Vec3)
    ensures Cross(v, u) == Scale(Cross(u, v), -1.0)
  {
  }

  /** The norm does not see the orientation of a vector. */
  lemma NormNegate(v: Vec3, norm: Vec3 -> real)
    requires IsEuclideanNorm(norm)
    ensures norm(Scale(v, -1.0)) == norm(v)
  {
    assert IsNormOf(norm(v), v);
    assert IsNormOf(norm(Scale(v, -1.0)), Scale(v, -1.0));
    NormSqScale(v, -1.0);
    RealArith.SquareRootUnique(norm(Scale(v, -1.0)), norm(v));
  }

  /** Normalizing the opposite vector gives the opposite unit vector. */
  lemma NormalizeNegate(v: Vec3, norm: Vec3 -> real)
    requires IsEuclideanNorm(norm)
    ensures Normalize(Scale(v, -1.0), norm).Success? <==> Normalize(v, norm).Success?
    ensures Normalize(v, norm).Success? ==>
      Normalize(Scale(v, -1.0), norm).value == Scale(Normalize(v, norm).value, -1.0)
  {
    if v != Zero {
      NormNegate(v, norm);
      NormalizeStep(v, norm);
      var k := 1.0 / norm(v);
      RealArith.NegateProduct(k, v.x);
      RealArith.NegateProduct(k, v.y);
      RealArith.NegateProduct(k, v.w);
    }
  }
}

=== FILE: real_arith.dfy ===
/** Small facts of real arithmetic, stated one step at a time so that each
    nonlinear step is proved in isolation and used elsewhere as a plain
    equation or inequality. */
module RealArith {

  lemma Distribute3(k: real, a: real, b: real, c: real)
    ensures k * (a + b + c) == k * a + k * b + k * c
  {
  }

  lemma Associate(k: real, a: real, b: real)
    ensures (k * a) * b == k * (a * b)
    ensures a * (k * b) == k * (a * b)
  {
  }

  lemma SquareOfProduct(k: real, a: real)
    ensures (k * a) * (k * a) == (k * k) * (a * a)
  {
  }

  lemma DistributeDifference(k: real, a: real, b: real)
    ensures k * (a - b) == k * a - k * b
  {
  }

  lemma ZeroProduct(k: real, s: real)
    requires k != 0.0 && k * s == 0.0
    ensures s == 0.0
  {
  }

  lemma MultiplyByOne(a: real)
    ensures a * 1.0 == a && 1.0 * a == a
  {
  }

  lemma Cancel(k: real, a: real, b: real)
    requires k != 0.0 && k * a == k * b
    ensures a == b
  {
  }

  lemma InverseSquare(k: real)
    requires k != 0.0
    ensures (1.0 / k) * (1.0 / k) * (k * k) == 1.0
  {
  }

  lemma ProductSign(a: real, b: real)
    requires a > 0.0
    ensures b > 0.0 <==> a * b > 0.0
    ensures b < 0.0 <==> a * b < 0.0
    ensures b == 0.0 <==> a * b == 0.0
  {
  }

  lemma QuotientTimesDivisor(a: real, w: real)
    requires w != 0.0
    ensures (a / w) * w == a
  {
  }

  lemma QuotientOfMultiples(a: real, w: real, k: real)
    requires w != 0.0 && k != 0.0
    ensures k * w != 0.0
    ensures (k * a) / (k * w) == a / w
  {
  }

  /** A homogeneous 2x2 system with nonzero determinant has only the zero
      solution. */
  lemma TwoByTwoUnique(a: real, b: real, c: real, d: real, u: real, v: real)
    requires a * u + b * v == 0.0 && c * u + d * v == 0.0
    requires a * d - b * c != 0.0
    ensures u == 0.0 && v == 0.0
  {
  }

  /** Non-negative square roots are unique. */
  lemma SquareRootUnique(k: real, m: real)
    requires 0.0 <= k && 0.0 <= m && k * k == m * m
    ensures k == m
  {
    DifferenceOfSquares(k, m);
    if k + m != 0.0 {
      ZeroProduct(k + m, k - m);
    }
  }

  lemma DifferenceOfSquares(k: real, m: real)
    ensures (k - m) * (k + m) == k * k - m * m
  {
  }

  lemma NegateProduct(a: real, b: real)
    ensures -1.0 * (a * b) == a * (-1.0 * b)
    ensures -1.0 * (a * b) == (-1.0 * a) * b
  {
  }

  /** Multiplying by a nonzero factor either keeps or flips every sign, so
      two nonzero numbers differ in sign exactly when their multiples do. */
  lemma OppositeSigns(k: real, u: real, v: real)
    requires k != 0.0 && u != 0.0 && v != 0.0
    ensures ((k * u < 0.0) != (k * v < 0.0)) <==> ((u < 0.0) != (v < 0.0))
  {
    if k > 0.0 {
      ProductSign(k, u);
      ProductSign(k, v);
    } else {
      ProductSign(-k, u);
      ProductSign(-k, v);
      assert (-k) * u == -(k * u) && (-k) * v == -(k * v);
    }
  }

  lemma MultiplyMonotone(k: real, a: real, b: real)
    requires 0.0 <= k && a <= b
    ensures k * a <= k * b
  {
    DistributeDifference(k, b, a);
    assert 0.0 <= k * (b - a);
  }

  /** An affine function of one variable with the same strict sign at both
      ends of an interval has that sign throughout the interval. */
  lemma SameSignBetween(e: real, k: real, lo: real, t: real, hi: real)
    requires lo <= t <= hi
    ensures e + k * lo < 0.0 && e + k * hi < 0.0 ==> e + k * t < 0.0
    ensures e + k * lo > 0.0 && e + k * hi > 0.0 ==> e + k * t > 0.0
  {
    if k >= 0.0 {
      MultiplyMonotone(k, lo, t);
      MultiplyMonotone(k, t, hi);
    } else {
      MultiplyMonotone(-k, lo, t);
      MultiplyMonotone(-k, t, hi);
      assert (-k) * lo == -(k * lo) && (-k) * t == -(k * t) && (-k) * hi == -(k * hi);
    }
  }

  /** An affine function e + k*t with a root r inside [lo, hi] changes sign
      between the ends of the interval, and only then, when neither end is
      a root. */
  lemma RootBetween(e: real, k: real, r: real, lo: real, hi: real)
    requires lo <= hi
    requires k != 0.0 && e + k * r == 0.0
    requires e + k * lo != 0.0 && e + k * hi != 0.0
    ensures (lo <= r <= hi) <==> ((e + k * lo < 0.0) != (e + k * hi < 0.0))
  {
    DistributeDifference(k, lo, r);
    DistributeDifference(k, hi, r);
    assert e + k * lo == k * (lo - r) && e + k * hi == k * (hi - r);
    assert lo != r && hi != r;
    OppositeSigns(k, lo - r, hi - r);
  }

  /** An affine function of two variables that is negative (positive) at
      the four corners of a box is negative (positive) throughout it. */
  lemma SameSignInBox(a: real, b: real, c: real, x0: real, x1: real, y0: real, y1: real, x: real, y: real)
    requires x0 <= x <= x1 && y0 <= y <= y1
    ensures a * x0 + b * y0 + c < 0.0 && a * x0 + b * y1 + c < 0.0 && a * x1 + b * y0 + c < 0.0 && a * x1 + b * y1 + c < 0.0
      ==> a * x + b * y + c < 0.0
    ensures a * x0 + b * y0 + c > 0.0 && a * x0 + b * y1 + c > 0.0 && a * x1 + b * y0 + c > 0.0 && a * x1 + b * y1 + c > 0.0
      ==> a * x + b * y + c > 0.0
  {
    SameSignBetween(b * y0 + c, a, x0, x, x1);
    SameSignBetween(b * y1 + c, a, x0, x, x1);
    SameSignBetween(a * x + c, b, y0, y, y1);
  }

  /** One component of the expansion l x (a x b) == (l . b) a - (l . a) b;
      the other two follow by rotating the coordinates. */
  lemma TripleProductComponent(l1: real, l2: real, l3: real, a1: real, a2: real, a3: real, b1: real, b2: real, b3: real)
    ensures l2 * (a1 * b2 - a2 * b1) - l3 * (a3 * b1 - a1 * b3) ==
      (l1 * b1 + l2 * b2 + l3 * b3) * a1 - (l1 * a1 + l2 * a2 + l3 * a3) * b1
  {
  }

  /** The component of l x (a x b) vanishes when l is orthogonal to both a
      and b. */
  lemma TripleProductVanishes(l1: real, l2: real, l3: real, a1: real, a2: real, a3: real, b1: real, b2: real, b3: real)
    requires l1 * a1 + l2 * a2 + l3 * a3 == 0.0 && l1 * b1 + l2 * b2 + l3 * b3 == 0.0
    ensures l2 * (a1 * b2 - a2 * b1) - l3 * (a3 * b1 - a1 * b3) == 0.0
  {
    TripleProductComponent(l1, l2, l3, a1, a2, a3, b1, b2, b3);
  }

  lemma SquareNonNegative(a: real)
    ensures a * a >= 0.0
    ensures a * a == 0.0 ==> a == 0.0
  {
    if a < 0.0 {
      ProductSign(-a, -a);
      assert (-a) * (-a) == a * a;
    } else if a > 0.0 {
      ProductSign(a, a);
    }
  }

  /** A sum of three squares vanishes only when every term does. */
  lemma SumOfSquaresZero(a: real, b: real, c: real)
    requires a * a + b * b + c * c == 0.0
    ensures a == 0.0 && b == 0.0 && c == 0.0
  {
    SquareNonNegative(a);
    SquareNonNegative(b);
    SquareNonNegative(c);
  }

  /** Two positive factors whose squares scale a nonzero number alike are
      equal. */
  lemma PositiveFactorUnique(k: real, m: real, n: real)
    requires 0.0 < k && 0.0 < m && n != 0.0
    requires k * k * n == m * m * n
    ensures k == m
  {
    assert n * (k * k) == n * (m * m);
    Cancel(n, k * k, m * m);
    SquareRootUnique(k, m);
  }
}

=== FILE: results.dfy ===
/** Failure-compatible outcomes shared by the projective-geometry core.
    In the rectification pipeline, every division that the Python code
    performs on a possibly-zero value becomes one of the named failures
    below instead of an infinity or NaN. The clipping routine drops such a
    candidate instead and fails only on the count of survivors. */
module Results {

  /** The ways a computation of the core can be aborted. */
  datatype GeometryError =
    | DegenerateInput           // a zero vector would be normalized: two points coincide
    | BoundaryIntersection      // a line does not meet the plot rectangle exactly twice
    | VanishingPointAtInfinity  // a pair of opposite sides is already parallel in the image
    | CornerAtInfinity          // a corner lies on the imaged line at infinity
    | TooFewCorners             // fewer than four corners were supplied

  datatype Option<+T> = None | Some(value: T)

  /** Success with a value, or one of the named failures; usable with `:-`. */
  datatype Result<+T> = Success(value: T) | Failure(error: GeometryError) {

    predicate IsFailure() {
      Failure?
    }

    function PropagateFailure<U>(): Result<U>
      requires Failure?
    {
      Failure(error)
    }

    function Extract(): T
      requires Success?
    {
      value
    }
  }
}

=== FILE: scenarios.dfy ===
/** Worked examples: the inputs of the repository's demo drivers and a few
    boundary cases, evaluated through the model. */
module Scenarios {
  import opened Results
  import opened Homogeneous
  import opened Visualize
  import opened AffineRectify

  /** The points (1, 3) and (4, 1) span the line 2x + 3y - 11 = 0. */
  lemma DemoLine()
    ensures Cross(Vec3(1.0, 3.0, 1.0), Vec3(4.0, 1.0, 1.0)) == Vec3(2.0, 3.0, -11.0)
  {
  }

  /** Clipped to [0, 5] x [0, 4] that line leaves through the left edge at
      (0, 11/3) and the right edge at (5, 1/3); it misses the top edge (x
      would be -1/2) and the bottom edge (x would be 11/2). */
  lemma DemoLineEndpoints()
    ensures LineEndpoints(Vec3(2.0, 3.0, -11.0), PlotLimits(0.0, 5.0, 0.0, 4.0)) ==
      Success((Vec3(0.0, 11.0 / 3.0, 1.0), Vec3(5.0, 1.0 / 3.0, 1.0)))
  {
    var line, lim := Vec3(2.0, 3.0, -11.0), PlotLimits(0.0, 5.0, 0.0, 4.0);
    var pl, pr, pt, pb := Vec3(0.0, 11.0 / 3.0, 1.0), Vec3(5.0, 1.0 / 3.0, 1.0), Vec3(-0.5, 4.0, 1.0), Vec3(5.5, 0.0, 1.0);
    assert MeetsEdgeAt(line, Left, lim, pl);
    assert MeetsEdgeAt(line, Right, lim, pr);
    assert MeetsEdgeAt(line, Top, lim, pt);
    assert MeetsEdgeAt(line, Bottom, lim, pb);
    assert Kept(Left, lim, pl) + Kept(Right, lim, pr) + Kept(Top, lim, pt) + Kept(Bottom, lim, pb) == [pl, pr];
    EndpointsOfMeets(line, lim, pl, pr, pt, pb, pl, pr);
  }

  /** The two parallel lines y = x + 2 and y = x + 3 meet at infinity, in
      the direction (-1, -1). */
  lemma ParallelLinesMeetAtInfinity()
    ensures Cross(Vec3(1.0, -1.0, 2.0), Vec3(1.0, -1.0, 3.0)) == Vec3(-1.0, -1.0, 0.0)
  {
  }

  /** With the limits built from that meet, [-4, 2] x [-4, 2], the line
      y = x + 2 is clipped to (-4, -2) on the left edge and (0, 2) on the
      top edge. */
  lemma ParallelLinesFirstEndpoints()
    ensures LineEndpoints(Vec3(1.0, -1.0, 2.0), PlotLimits(-4.0, 2.0, -4.0, 2.0)) ==
      Success((Vec3(-4.0, -2.0, 1.0), Vec3(0.0, 2.0, 1.0)))
  {
    var line, lim := Vec3(1.0, -1.0, 2.0), PlotLimits(-4.0, 2.0, -4.0, 2.0);
    var pl, pr, pt, pb := Vec3(-4.0, -2.0, 1.0), Vec3(2.0, 4.0, 1.0), Vec3(0.0, 2.0, 1.0), Vec3(-6.0, -4.0, 1.0);
    assert MeetsEdgeAt(line, Left, lim, pl);
    assert MeetsEdgeAt(line, Right, lim, pr);
    assert MeetsEdgeAt(line, Top, lim, pt);
    assert MeetsEdgeAt(line, Bottom, lim, pb);
    assert Kept(Left, lim, pl) + Kept(Right, lim, pr) + Kept(Top, lim, pt) + Kept(Bottom, lim, pb) == [pl, pt];
    EndpointsOfMeets(line, lim, pl, pr, pt, pb, pl, pt);
  }

  /** ... and y = x + 3 to (-4, -1) on the left edge and (-1, 2) on the top
      edge. */
  lemma ParallelLinesSecondEndpoints()
    ensures LineEndpoints(Vec3(1.0, -1.0, 3.0), PlotLimits(-4.0, 2.0, -4.0, 2.0)) ==
      Success((Vec3(-4.0, -1.0, 1.0), Vec3(-1.0, 2.0, 1.0)))
  {
    var line, lim := Vec3(1.0, -1.0, 3.0), PlotLimits(-4.0, 2.0, -4.0, 2.0);
    var pl, pr, pt, pb := Vec3(-4.0, -1.0, 1.0), Vec3(2.0, 5.0, 1.0), Vec3(-1.0, 2.0, 1.0), Vec3(-7.0, -4.0, 1.0);
    assert MeetsEdgeAt(line, Left, lim, pl);
    assert MeetsEdgeAt(line, Right, lim, pr);
    assert MeetsEdgeAt(line, Top, lim, pt);
    assert MeetsEdgeAt(line, Bottom, lim, pb);
    assert Kept(Left, lim, pl) + Kept(Right, lim, pr) + Kept(Top, lim, pt) + Kept(Bottom, lim, pb) == [pl, pt];
    EndpointsOfMeets(line, lim, pl, pr, pt, pb, pl, pt);
  }

  /** The diagonal of the square [0, 10]^2 passes through two corners, each
      counted by two edges: four survivors, so the clipping fails. */
  lemma DiagonalFails()
    ensures Survivors(Vec3(1.0, -1.0, 0.0), PlotLimits(0.0, 10.0, 0.0, 10.0), EdgeOrder) ==
      [Vec3(0.0, 0.0, 1.0), Vec3(10.0, 10.0, 1.0), Vec3(10.0, 10.0, 1.0), Vec3(0.0, 0.0, 1.0)]
    ensures LineEndpoints(Vec3(1.0, -1.0, 0.0), PlotLimits(0.0, 10.0, 0.0, 10.0)) ==
      Failure(BoundaryIntersection)
  {
    var line, lim := Vec3(1.0, -1.0, 0.0), PlotLimits(0.0, 10.0, 0.0, 10.0);
    var pl, pr, pt, pb := Vec3(0.0, 0.0, 1.0), Vec3(10.0, 10.0, 1.0), Vec3(10.0, 10.0, 1.0), Vec3(0.0, 0.0, 1.0);
    assert MeetsEdgeAt(line, Left, lim, pl);
    assert MeetsEdgeAt(line, Right, lim, pr);
    assert MeetsEdgeAt(line, Top, lim, pt);
    assert MeetsEdgeAt(line, Bottom, lim, pb);
    assert Kept(Left, lim, pl) + Kept(Right, lim, pr) + Kept(Top, lim, pt) + Kept(Bottom, lim, pb) == [pl, pr, pt, pb];
    SurvivorsOfMeets(line, lim, pl, pr, pt, pb);
  }

  /** The line y = x / 2 through the corner (0, 0) of the square [0, 10]^2
      leaves it at (10, 5), a perfectly good segment, but the corner is
      counted by the left and the bottom edge: three survivors, so the
      clipping fails. */
  lemma CornerLineFails()
    ensures Survivors(Vec3(1.0, -2.0, 0.0), PlotLimits(0.0, 10.0, 0.0, 10.0), EdgeOrder) ==
      [Vec3(0.0, 0.0, 1.0), Vec3(10.0, 5.0, 1.0), Vec3(0.0, 0.0, 1.0)]
    ensures LineEndpoints(Vec3(1.0, -2.0, 0.0), PlotLimits(0.0, 10.0, 0.0, 10.0)) ==
      Failure(BoundaryIntersection)
  {
    var line, lim := Vec3(1.0, -2.0, 0.0), PlotLimits(0.0, 10.0, 0.0, 10.0);
    var pl, pr, pt, pb := Vec3(0.0, 0.0, 1.0), Vec3(10.0, 5.0, 1.0), Vec3(20.0, 10.0, 1.0), Vec3(0.0, 0.0, 1.0);
    assert MeetsEdgeAt(line, Left, lim, pl);
    assert MeetsEdgeAt(line, Right, lim, pr);
    assert MeetsEdgeAt(line, Top, lim, pt);
    assert MeetsEdgeAt(line, Bottom, lim, pb);
    assert Kept(Left, lim, pl) + Kept(Right, lim, pr) + Kept(Top, lim, pt) + Kept(Bottom, lim, pb) == [pl, pr, pb];
    SurvivorsOfMeets(line, lim, pl, pr, pt, pb);
  }

  /** The line x + y = 30 passes outside the square [0, 10]^2: no
      survivors, so the clipping fails. */
  lemma MissingLineFails()
    ensures Survivors(Vec3(1.0, 1.0, -30.0), PlotLimits(0.0, 10.0, 0.0, 10.0), EdgeOrder) == []
    ensures LineEndpoints(Vec3(1.0, 1.0, -30.0), PlotLimits(0.0, 10.0, 0.0, 10.0)) ==
      Failure(BoundaryIntersection)
  {
    var line, lim := Vec3(1.0, 1.0, -30.0), PlotLimits(0.0, 10.0, 0.0, 10.0);
    var pl, pr, pt, pb := Vec3(0.0, 30.0, 1.0), Vec3(10.0, 20.0, 1.0), Vec3(20.0, 10.0, 1.0), Vec3(30.0, 0.0, 1.0);
    assert MeetsEdgeAt(line, Left, lim, pl);
    assert MeetsEdgeAt(line, Right, lim, pr);
    assert MeetsEdgeAt(line, Top, lim, pt);
    assert MeetsEdgeAt(line, Bottom, lim, pb);
    assert Kept(Left, lim, pl) + Kept(Right, lim, pr) + Kept(Top, lim, pt) + Kept(Bottom, lim, pb) == [];
    SurvivorsOfMeets(line, lim, pl, pr, pt, pb);
  }

  /** The trapezoid (0, 0), (4, 0), (5, 3), (-1, 3) has its sides 0 and 2
      both horizontal, so the first vanishing point lies at infinity. */
  lemma TrapezoidFails(norm: Vec3 -> real)
    requires IsEuclideanNorm(norm)
    ensures Rectify([Point2(0.0, 0.0), Point2(4.0, 0.0), Point2(5.0, 3.0), Point2(-1.0, 3.0)], norm)
      == Failure(VanishingPointAtInfinity)
  {
    var c0, c1, c2, c3 := Point2(0.0, 0.0), Point2(4.0, 0.0), Point2(5.0, 3.0), Point2(-1.0, 3.0);
    var corners := [c0, c1, c2, c3];
    ConsecutiveDistinct(corners);
    assert ParallelSegments(c0, c1, c2, c3);
    RectifyParallelSides(corners, norm);
  }

  /** A quadrilateral clicked twice at the same spot has no first side. */
  lemma RepeatedClickFails(norm: Vec3 -> real)
    requires IsEuclideanNorm(norm)
    ensures Rectify([Point2(1.0, 1.0), Point2(1.0, 1.0), Point2(5.0, 3.0), Point2(0.0, 3.0)], norm)
      == Failure(DegenerateInput)
  {
    var corners := [Point2(1.0, 1.0), Point2(1.0, 1.0), Point2(5.0, 3.0), Point2(0.0, 3.0)];
    assert Next(0) == 1;
    RectifyCoincidentCorners(corners, norm, 0);
  }

  /** Four corners of which no two consecutive ones coincide have all four
      side lines; the side lines are those through the consecutive pairs. */
  lemma ConsecutiveDistinct(corners: seq<Point2>)
    requires |corners| == 4
    requires corners[0] != corners[1] && corners[1] != corners[2]
    requires corners[2] != corners[3] && corners[3] != corners[0]
    ensures forall norm: Vec3 -> real | IsEuclideanNorm(norm) :: SideLines(corners, norm).Success?
  {
    assert Next(0) == 1 && Next(1) == 2 && Next(2) == 3 && Next(3) == 0;
  }
}

=== FILE: visualize.dfy ===
/** Clipping a homogeneous line to a plot rectangle: the two points where the
    infinite line crosses the rectangle's boundary, found by intersecting it
    with the four edge lines in the order left, right, top, bottom. */
module Visualize {
  import opened Results
  import opened Homogeneous
  import RealArith

  /** The plot rectangle, in the order of the Python code's 4-vector
      [x_min, x_max, y_min, y_max]. */
  datatype PlotLimits = PlotLimits(xMin: real, xMax: real, yMin: real, yMax: real)

  datatype Side = Left | Right | Top | Bottom

  /** The order in which the edges are checked and survivors collected. */
  const EdgeOrder: seq<Side> := [Left, Right, Top, Bottom]

  predicate WellFormed(lim: PlotLimits) {
    lim.xMin <= lim.xMax && lim.yMin <= lim.yMax
  }

  /** Left and right edges fix x; top and bottom edges fix y. */
  predicate IsVertical(s: Side) {
    s == Left || s == Right
  }

  /** The value of the coordinate that is fixed along an edge. */
  function EdgeValue(s: Side, lim: PlotLimits): real {
    match s
    case Left => lim.xMin
    case Right => lim.xMax
    case Top => lim.yMax
    case Bottom => lim.yMin
  }

  /** The supporting line of an edge: (1, 0, -x) for a vertical edge at x,
      (0, 1, -y) for a horizontal edge at y. */
  function EdgeLine(s: Side, lim: PlotLimits): Vec3 {
    if IsVertical(s) then Vec3(1.0, 0.0, -EdgeValue(s, lim))
    else Vec3(0.0, 1.0, -EdgeValue(s, lim))
  }

  /** The coefficient of the line on the coordinate that is free along the
      edge; the line is parallel to the edge exactly when it is zero. */
  function FreeCoefficient(line: Vec3, s: Side): real {
    if IsVertical(s) then line.y else line.x
  }

  /** An affine point on the supporting line of the edge. */
  predicate OnEdgeLine(s: Side, lim: PlotLimits, p: Vec3) {
    if IsVertical(s) then p.x == EdgeValue(s, lim) else p.y == EdgeValue(s, lim)
  }

  /** The inclusive range test on the free coordinate. */
  predicate WithinEdge(s: Side, lim: PlotLimits, p: Vec3) {
    if IsVertical(s) then p.y <= lim.yMax && p.y >= lim.yMin
    else p.x <= lim.xMax && p.x >= lim.xMin
  }

  /** A point on one of the four closed edges of the rectangle. */
  predicate OnBoundary(lim: PlotLimits, p: Vec3) {
    || ((p.x == lim.xMin || p.x == lim.xMax) && lim.yMin <= p.y <= lim.yMax)
    || ((p.y == lim.yMin || p.y == lim.yMax) && lim.xMin <= p.x <= lim.xMax)
  }

  predicate InRectangle(lim: PlotLimits, p: Vec3) {
    lim.xMin <= p.x <= lim.xMax && lim.yMin <= p.y <= lim.yMax
  }

  /** The intersection of the line with an edge's supporting line, in affine
      form; a line parallel to the edge meets it at infinity and yields no
      candidate rather than a division by zero. */
  function Candidate(line: Vec3, s: Side, lim: PlotLimits): (r: Option<Vec3>)
    ensures r.Some? <==> FreeCoefficient(line, s) != 0.0
    ensures r.Some? ==> r.value.w == 1.0 && OnEdgeLine(s, lim, r.value) && Incident(line, r.value)
  {
    var c := Cross(line, EdgeLine(s, lim));
    if c.w == 0.0 then None
    else
      CandidateFacts(line, s, lim);
      Some(Dehomogenize(c))
  }

  lemma CandidateFacts(line: Vec3, s: Side, lim: PlotLimits)
    ensures Cross(line, EdgeLine(s, lim)).w == (if IsVertical(s) then -line.y else line.x)
    ensures Cross(line, EdgeLine(s, lim)).w != 0.0 ==>
      var p := Dehomogenize(Cross(line, EdgeLine(s, lim)));
      OnEdgeLine(s, lim, p) && Incident(line, p)
  {
    var e := EdgeLine(s, lim);
    var c := Cross(line, e);
    if c.w != 0.0 {
      CrossIncidence(line, e);
      DehomogenizeIncidence(line, c);
      DehomogenizeIncidence(e, c);
      EdgeIncidence(s, lim, Dehomogenize(c));
    }
  }

  /** For an affine point, lying on the edge's supporting line is incidence
      with the edge line. */
  lemma EdgeIncidence(s: Side, lim: PlotLimits, p: Vec3)
    requires p.w == 1.0
    ensures Incident(EdgeLine(s, lim), p) <==> OnEdgeLine(s, lim, p)
  {
    RealArith.MultiplyByOne(-EdgeValue(s, lim));
  }

  /** A line that is not parallel to an edge meets its supporting line in
      exactly one affine point. */
  lemma EdgePointUnique(line: Vec3, s: Side, lim: PlotLimits, p: Vec3, q: Vec3)
    requires FreeCoefficient(line, s) != 0.0
    requires p.w == 1.0 && OnEdgeLine(s, lim, p) && Incident(line, p)
    requires q.w == 1.0 && OnEdgeLine(s, lim, q) && Incident(line, q)
    ensures p == q
  {
    if IsVertical(s) {
      RealArith.Cancel(line.y, p.y, q.y);
    } else {
      RealArith.Cancel(line.x, p.x, q.x);
    }
  }

  /** The candidate of an edge is characterised without the cross product:
      it is the one affine point on both the line and the edge's supporting
      line, and it exists exactly when the two are not parallel. */
  lemma CandidateCharacterization(line: Vec3, s: Side, lim: PlotLimits, p: Vec3)
    ensures Candidate(line, s, lim) == Some(p) <==>
      FreeCoefficient(line, s) != 0.0 && p.w == 1.0 && OnEdgeLine(s, lim, p) && Incident(line, p)
  {
    var r := Candidate(line, s, lim);
    if FreeCoefficient(line, s) != 0.0 && p.w == 1.0 && OnEdgeLine(s, lim, p) && Incident(line, p) {
      EdgePointUnique(line, s, lim, r.value, p);
    }
  }

  /** The candidate of an edge if it passes the inclusive range test. */
  function Survivor(line: Vec3, s: Side, lim: PlotLimits): (r: Option<Vec3>)
    ensures r.Some? ==> r.value.w == 1.0 && OnEdgeLine(s, lim, r.value) && WithinEdge(s, lim, r.value)
    ensures r.Some? ==> FreeCoefficient(line, s) != 0.0
    ensures FreeCoefficient(line, s) != 0.0 && r.None? ==> !WithinEdge(s, lim, Candidate(line, s, lim).value)
  {
    match Candidate(line, s, lim)
    case None => None
    case Some(p) => if WithinEdge(s, lim, p) then Some(p) else None
  }

  /** A survivor lies on the closed edge itself, hence on the boundary. */
  lemma SurvivorOnBoundary(line: Vec3, s: Side, lim: PlotLimits)
    requires Survivor(line, s, lim).Some?
    ensures var p := Survivor(line, s, lim).value;
      p.w == 1.0 && Incident(line, p) && OnEdgeLine(s, lim, p) && OnBoundary(lim, p)
  {
  }

  /** An optional point as a sequence of zero or one point. */
  function AsSeq(o: Option<Vec3>): seq<Vec3> {
    match o
    case None => []
    case Some(p) => [p]
  }

  /** The survivors of the given edges, in the order the edges are checked:
      one slot per edge that keeps its candidate, with no deduplication. */
  function Survivors(line: Vec3, lim: PlotLimits, sides: seq<Side>): (ps: seq<Vec3>)
    ensures |ps| <= |sides|
    decreases |sides|
  {
    if sides == [] then []
    else AsSeq(Survivor(line, sides[0], lim)) + Survivors(line, lim, sides[1..])
  }

  /** Every survivor is an affine point of the line on the boundary. */
  lemma {:induction false} SurvivorsOnBoundary(line: Vec3, lim: PlotLimits, sides: seq<Side>)
    ensures forall p <- Survivors(line, lim, sides) :: p.w == 1.0 && Incident(line, p) && OnBoundary(lim, p)
    decreases |sides|
  {
    if sides != [] {
      if Survivor(line, sides[0], lim).Some? {
        SurvivorOnBoundary(line, sides[0], lim);
      }
      SurvivorsOnBoundary(line, lim, sides[1..]);
    }
  }

  /** The endpoints of the visible segment of the line. The Python code raises
      unless exactly two edge tests succeed; here that is the
      BoundaryIntersection failure. */
  function LineEndpoints(line: Vec3, lim: PlotLimits): (r: Result<(Vec3, Vec3)>)
    ensures r.Success? <==> |Survivors(line, lim, EdgeOrder)| == 2
    ensures r.Failure? ==> r.error == BoundaryIntersection
    ensures r.Success? ==>
      && [r.value.0, r.value.1] == Survivors(line, lim, EdgeOrder)
      && r.value.0.w == 1.0 && Incident(line, r.value.0) && OnBoundary(lim, r.value.0)
      && r.value.1.w == 1.0 && Incident(line, r.value.1) && OnBoundary(lim, r.value.1)
  {
    var ps := Survivors(line, lim, EdgeOrder);
    SurvivorsOnBoundary(line, lim, EdgeOrder);
    if |ps| != 2 then Failure(BoundaryIntersection)
    else
      assert ps[0] in ps && ps[1] in ps;
      Success((ps[0], ps[1]))
  }

  /** A side keeps a point exactly when the line is not parallel to it and
      meets its supporting line inside the inclusive range. */
  lemma SurvivorCharacterization(line: Vec3, s: Side, lim: PlotLimits, p: Vec3)
    ensures Survivor(line, s, lim) == Some(p) <==>
      && FreeCoefficient(line, s) != 0.0
      && p.w == 1.0 && OnEdgeLine(s, lim, p) && Incident(line, p)
      && WithinEdge(s, lim, p)
  {
    CandidateCharacterization(line, s, lim, p);
  }

  /** The survivors come in edge-test order, one slot per edge, with no
      deduplication. */
  lemma SurvivorsInEdgeOrder(line: Vec3, lim: PlotLimits)
    ensures Survivors(line, lim, EdgeOrder) ==
      AsSeq(Survivor(line, Left, lim)) + AsSeq(Survivor(line, Right, lim))
      + AsSeq(Survivor(line, Top, lim)) + AsSeq(Survivor(line, Bottom, lim))
  {
    assert EdgeOrder[1..] == [Right, Top, Bottom];
    assert EdgeOrder[1..][1..] == [Top, Bottom];
    assert EdgeOrder[1..][1..][1..] == [Bottom];
    assert EdgeOrder[1..][1..][1..][1..] == [];
  }

  /** With well-formed limits both endpoints lie in the closed rectangle. */
  lemma EndpointsInRectangle(line: Vec3, lim: PlotLimits)
    requires WellFormed(lim)
    requires LineEndpoints(line, lim).Success?
    ensures InRectangle(lim, LineEndpoints(line, lim).value.0)
    ensures InRectangle(lim, LineEndpoints(line, lim).value.1)
  {
  }

  /** A line through a corner of the rectangle that is parallel to neither
      axis is kept at that corner by both edge tests that meet there: the
      vertical edge `v` and the horizontal edge `h`. The corner is therefore
      counted twice. */
  lemma CornerCountedTwice(line: Vec3, lim: PlotLimits, v: Side, h: Side)
    requires WellFormed(lim)
    requires IsVertical(v) && !IsVertical(h)
    requires line.x != 0.0 && line.y != 0.0
    requires Incident(line, Vec3(EdgeValue(v, lim), EdgeValue(h, lim), 1.0))
    ensures Survivor(line, v, lim) == Some(Vec3(EdgeValue(v, lim), EdgeValue(h, lim), 1.0))
    ensures Survivor(line, h, lim) == Some(Vec3(EdgeValue(v, lim), EdgeValue(h, lim), 1.0))
  {
    var corner := Vec3(EdgeValue(v, lim), EdgeValue(h, lim), 1.0);
    SurvivorCharacterization(line, v, lim, corner);
    SurvivorCharacterization(line, h, lim, corner);
  }

  /** `p` is the affine point where the line meets the supporting line of
      edge `s`. */
  predicate MeetsEdgeAt(line: Vec3, s: Side, lim: PlotLimits, p: Vec3) {
    FreeCoefficient(line, s) != 0.0 && p.w == 1.0 && OnEdgeLine(s, lim, p) && Incident(line, p)
  }

  /** Once the meet of the line with an edge's supporting line is known, the
      edge keeps it exactly when it passes the range test. */
  lemma SurvivorOfMeet(line: Vec3, s: Side, lim: PlotLimits, p: Vec3)
    requires MeetsEdgeAt(line, s, lim, p)
    ensures Survivor(line, s, lim) == if WithinEdge(s, lim, p) then Some(p) else None
  {
    CandidateCharacterization(line, s, lim, p);
  }

  /** The range test of one edge as a sequence of zero or one point. */
  function Kept(s: Side, lim: PlotLimits, p: Vec3): seq<Vec3> {
    if WithinEdge(s, lim, p) then [p] else []
  }

  /** For a line parallel to no edge, the survivors are the four meets that
      pass their range tests, in edge-test order. */
  lemma SurvivorsOfMeets(line: Vec3, lim: PlotLimits, pl: Vec3, pr: Vec3, pt: Vec3, pb: Vec3)
    requires MeetsEdgeAt(line, Left, lim, pl) && MeetsEdgeAt(line, Right, lim, pr)
    requires MeetsEdgeAt(line, Top, lim, pt) && MeetsEdgeAt(line, Bottom, lim, pb)
    ensures Survivors(line, lim, EdgeOrder) ==
      Kept(Left, lim, pl) + Kept(Right, lim, pr) + Kept(Top, lim, pt) + Kept(Bottom, lim, pb)
  {
    SurvivorOfMeet(line, Left, lim, pl);
    SurvivorOfMeet(line, Right, lim, pr);
    SurvivorOfMeet(line, Top, lim, pt);
    SurvivorOfMeet(line, Bottom, lim, pb);
    SurvivorsInEdgeOrder(line, lim);
  }

  /** For a line parallel to no edge whose meets keep exactly two points, the
      clipped segment runs between those two points, in edge-test order. */
  lemma EndpointsOfMeets(line: Vec3, lim: PlotLimits, pl: Vec3, pr: Vec3, pt: Vec3, pb: Vec3, p: Vec3, q: Vec3)
    requires MeetsEdgeAt(line, Left, lim, pl) && MeetsEdgeAt(line, Right, lim, pr)
    requires MeetsEdgeAt(line, Top, lim, pt) && MeetsEdgeAt(line, Bottom, lim, pb)
    requires Kept(Left, lim, pl) + Kept(Right, lim, pr) + Kept(Top, lim, pt) + Kept(Bottom, lim, pb) == [p, q]
    ensures LineEndpoints(line, lim) == Success((p, q))
  {
    SurvivorsOfMeets(line, lim, pl, pr, pt, pb);
  }

  /** A homogeneous line and any nonzero multiple of it are the same line:
      each edge yields the same candidate for both. */
  lemma CandidateScaleFree(line: Vec3, s: Side, lim: PlotLimits, k: real)
    requires k != 0.0
    ensures Candidate(Scale(line, k), s, lim) == Candidate(line, s, lim)
  {
    var e := EdgeLine(s, lim);
    CrossScaleLeft(line, e, k);
    var c := Cross(line, e);
    if c.w != 0.0 {
      DehomogenizeScale(c, k);
    } else {
      assert Scale(c, k).w == 0.0;
    }
  }

  lemma {:induction false} SurvivorsScaleFree(line: Vec3, lim: PlotLimits, sides: seq<Side>, k: real)
    requires k != 0.0
    ensures Survivors(Scale(line, k), lim, sides) == Survivors(line, lim, sides)
    decreases |sides|
  {
    if sides != [] {
      CandidateScaleFree(line, sides[0], lim, k);
      SurvivorsScaleFree(line, lim, sides[1..], k);
    }
  }

  /** The clipped segment depends on the line only up to scale, so clipping
      a normalized line gives the same endpoints as clipping the raw cross
      product it came from. */
  lemma LineEndpointsScaleFree(line: Vec3, lim: PlotLimits, k: real)
    requires k != 0.0
    ensures LineEndpoints(Scale(line, k), lim) == LineEndpoints(line, lim)
  {
    SurvivorsScaleFree(line, lim, EdgeOrder, k);
  }

  // ---------------------------------------------------------------------
  // Lines that cross the rectangle

  /** The two ends of an edge: bottom then top for a vertical edge, left
      then right for a horizontal one. */
  function LowEnd(s: Side, lim: PlotLimits): Vec3 {
    if IsVertical(s) then Vec3(EdgeValue(s, lim), lim.yMin, 1.0)
    else Vec3(lim.xMin, EdgeValue(s, lim), 1.0)
  }

  function HighEnd(s: Side, lim: PlotLimits): Vec3 {
    if IsVertical(s) then Vec3(EdgeValue(s, lim), lim.yMax, 1.0)
    else Vec3(lim.xMax, EdgeValue(s, lim), 1.0)
  }

  /** The line leaves the two ends of the edge on opposite sides: its
      equation is negative at exactly one of them. */
  predicate SeparatesEnds(line: Vec3, s: Side, lim: PlotLimits) {
    (Dot(line, LowEnd(s, lim)) < 0.0) != (Dot(line, HighEnd(s, lim)) < 0.0)
  }

  /** None of the four corners of the rectangle lies on the line. */
  predicate ThroughNoCorner(line: Vec3, lim: PlotLimits) {
    && !Incident(line, Vec3(lim.xMin, lim.yMin, 1.0))
    && !Incident(line, Vec3(lim.xMin, lim.yMax, 1.0))
    && !Incident(line, Vec3(lim.xMax, lim.yMin, 1.0))
    && !Incident(line, Vec3(lim.xMax, lim.yMax, 1.0))
  }

  /** All four corners lie strictly on the same side of the line. */
  predicate CornersOnOneSide(line: Vec3, lim: PlotLimits) {
    var a, b := Dot(line, Vec3(lim.xMin, lim.yMin, 1.0)), Dot(line, Vec3(lim.xMin, lim.yMax, 1.0));
    var c, d := Dot(line, Vec3(lim.xMax, lim.yMin, 1.0)), Dot(line, Vec3(lim.xMax, lim.yMax, 1.0));
    (a < 0.0 && b < 0.0 && c < 0.0 && d < 0.0) || (a > 0.0 && b > 0.0 && c > 0.0 && d > 0.0)
  }

  /** The coordinate that varies along an edge. */
  function FreeCoordinate(s: Side, p: Vec3): real {
    if IsVertical(s) then p.y else p.x
  }

  /** The part of the line's equation that is constant along an edge. */
  function EdgeOffset(line: Vec3, s: Side, lim: PlotLimits): real {
    (if IsVertical(s) then line.x else line.y) * EdgeValue(s, lim) + line.w
  }

  /** Along an edge's supporting line the line's equation is affine in the
      free coordinate. */
  lemma LevelAlongEdge(line: Vec3, s: Side, lim: PlotLimits, p: Vec3)
    requires p.w == 1.0 && OnEdgeLine(s, lim, p)
    ensures Dot(line, p) == EdgeOffset(line, s, lim) + FreeCoefficient(line, s) * FreeCoordinate(s, p)
  {
  }

  /** When neither end of an edge is on the line, the edge keeps a point
      exactly when the line separates its ends. */
  lemma EdgeKeptIffSeparated(line: Vec3, s: Side, lim: PlotLimits)
    requires WellFormed(lim)
    requires !Incident(line, LowEnd(s, lim)) && !Incident(line, HighEnd(s, lim))
    ensures Survivor(line, s, lim).Some? <==> SeparatesEnds(line, s, lim)
  {
    if FreeCoefficient(line, s) == 0.0 {
      ParallelEdgeSeparatesNothing(line, s, lim);
    } else {
      var p := Candidate(line, s, lim).value;
      SurvivorOfMeet(line, s, lim, p);
      MeetWithinIffSeparated(line, s, lim, p);
    }
  }

  lemma ParallelEdgeSeparatesNothing(line: Vec3, s: Side, lim: PlotLimits)
    requires FreeCoefficient(line, s) == 0.0
    ensures !SeparatesEnds(line, s, lim)
  {
    var lo, hi := LowEnd(s, lim), HighEnd(s, lim);
    LevelAlongEdge(line, s, lim, lo);
    LevelAlongEdge(line, s, lim, hi);
  }

  lemma MeetWithinIffSeparated(line: Vec3, s: Side, lim: PlotLimits, p: Vec3)
    requires WellFormed(lim)
    requires !Incident(line, LowEnd(s, lim)) && !Incident(line, HighEnd(s, lim))
    requires MeetsEdgeAt(line, s, lim, p)
    ensures WithinEdge(s, lim, p) <==> SeparatesEnds(line, s, lim)
  {
    var e, lo, hi, r := EdgeLevels(line, s, lim, p);
    RealArith.RootBetween(e, FreeCoefficient(line, s), r, lo, hi);
  }

  /** The line's equation at the two ends of an edge and at the meet, as an
      affine function of the free coordinate. */
  lemma EdgeLevels(line: Vec3, s: Side, lim: PlotLimits, p: Vec3) returns (e: real, lo: real, hi: real, r: real)
    requires WellFormed(lim)
    requires p.w == 1.0 && OnEdgeLine(s, lim, p)
    ensures lo <= hi && (WithinEdge(s, lim, p) <==> lo <= r <= hi)
    ensures Dot(line, LowEnd(s, lim)) == e + FreeCoefficient(line, s) * lo
    ensures Dot(line, HighEnd(s, lim)) == e + FreeCoefficient(line, s) * hi
    ensures Dot(line, p) == e + FreeCoefficient(line, s) * r
  {
    e, lo, hi, r := EdgeOffset(line, s, lim), FreeCoordinate(s, LowEnd(s, lim)), FreeCoordinate(s, HighEnd(s, lim)), FreeCoordinate(s, p);
    LevelAlongEdge(line, s, lim, LowEnd(s, lim));
    LevelAlongEdge(line, s, lim, HighEnd(s, lim));
    LevelAlongEdge(line, s, lim, p);
  }

  /** One for an edge that keeps a point, zero otherwise. */
  function KeptCount(line: Vec3, s: Side, lim: PlotLimits): nat {
    |AsSeq(Survivor(line, s, lim))|
  }

  /** Four nonzero values around a cycle a, b, d, c with a + d == b + c
      change sign exactly twice unless all have the same sign: zero changes
      means one sign throughout, and four would give a + d and b + c
      opposite signs. */
  lemma TwoSignChanges(a: real, b: real, c: real, d: real)
    requires a != 0.0 && b != 0.0 && c != 0.0 && d != 0.0
    requires a + d == b + c
    ensures (if (a < 0.0) != (b < 0.0) then 1 else 0) + (if (c < 0.0) != (d < 0.0) then 1 else 0)
      + (if (b < 0.0) != (d < 0.0) then 1 else 0) + (if (a < 0.0) != (c < 0.0) then 1 else 0) == 2
      <==> !((a < 0.0 && b < 0.0 && c < 0.0 && d < 0.0) || (a > 0.0 && b > 0.0 && c > 0.0 && d > 0.0))
  {
  }

  /** A line through no corner has a clipped segment exactly when it does
      not leave all four corners on one side: the survivors are then the
      two edges whose ends it separates. */
  lemma EndpointsIffCornersSeparated(line: Vec3, lim: PlotLimits)
    requires WellFormed(lim) && ThroughNoCorner(line, lim)
    ensures LineEndpoints(line, lim).Success? <==> !CornersOnOneSide(line, lim)
  {
    var lb, lt := Vec3(lim.xMin, lim.yMin, 1.0), Vec3(lim.xMin, lim.yMax, 1.0);
    var rb, rt := Vec3(lim.xMax, lim.yMin, 1.0), Vec3(lim.xMax, lim.yMax, 1.0);
    assert LowEnd(Left, lim) == lb && HighEnd(Left, lim) == lt;
    assert LowEnd(Right, lim) == rb && HighEnd(Right, lim) == rt;
    assert LowEnd(Top, lim) == lt && HighEnd(Top, lim) == rt;
    assert LowEnd(Bottom, lim) == lb && HighEnd(Bottom, lim) == rb;
    EdgeKeptIffSeparated(line, Left, lim);
    EdgeKeptIffSeparated(line, Right, lim);
    EdgeKeptIffSeparated(line, Top, lim);
    EdgeKeptIffSeparated(line, Bottom, lim);
    SurvivorsInEdgeOrder(line, lim);
    assert |Survivors(line, lim, EdgeOrder)| ==
      KeptCount(line, Left, lim) + KeptCount(line, Right, lim) + KeptCount(line, Top, lim) + KeptCount(line, Bottom, lim);
    ParallelogramIdentity(line, lim);
    TwoSignChanges(Dot(line, lb), Dot(line, lt), Dot(line, rb), Dot(line, rt));
  }

  /** The line's equation is affine, so its values at opposite corners of
      the rectangle have equal sums. */
  lemma ParallelogramIdentity(line: Vec3, lim: PlotLimits)
    ensures Dot(line, Vec3(lim.xMin, lim.yMin, 1.0)) + Dot(line, Vec3(lim.xMax, lim.yMax, 1.0))
         == Dot(line, Vec3(lim.xMin, lim.yMax, 1.0)) + Dot(line, Vec3(lim.xMax, lim.yMin, 1.0))
  {
  }

  /** If all four corners lie strictly on one side of the line, so does
      every point of the closed rectangle: the line's equation is monotone
      in x along the top and bottom edges, then monotone in y between them. */
  lemma RectangleOnOneSide(line: Vec3, lim: PlotLimits, q: Vec3)
    requires CornersOnOneSide(line, lim)
    requires q.w == 1.0 && InRectangle(lim, q)
    ensures !Incident(line, q)
  {
    RealArith.SameSignInBox(line.x, line.y, line.w, lim.xMin, lim.xMax, lim.yMin, lim.yMax, q.x, q.y);
  }

  /** A line through a point of the closed rectangle and through none of its
      corners crosses the boundary twice, so clipping it succeeds. */
  lemma InteriorLineHasEndpoints(line: Vec3, lim: PlotLimits, q: Vec3)
    requires q.w == 1.0 && InRectangle(lim, q) && Incident(line, q)
    requires ThroughNoCorner(line, lim)
    ensures LineEndpoints(line, lim).Success?
  {
    EndpointsIffCornersSeparated(line, lim);
    if CornersOnOneSide(line, lim) {
      RectangleOnOneSide(line, lim, q);
    }
  }
}
